=== FILE: README.md ===
# catchpy-import: a Dafny model of the migration core

catchpy-import moves web annotations from a legacy AnnotatorJS ("AnnoJS")
store into catchpy's canonical ("Catcha") schema. This project models the
parts of `migrate.py` and `set_deleted.py` that decide what ends up in the
output. It then proves properties of that model. The parts are:

- **Pull** (`pull.dfy`). The paged pull of `pull_all` / `pull_all_v2`. Pages
  of search rows are fetched at an advancing offset and merged into
  `fullset_anno`. That is an insertion-ordered dict from record id to the
  first record seen with that id. The loop stops when a page adds nothing new,
  or when the page counter reaches 50000.
- **Hammer** (`hammer.dfy`). The "hammering fixes" of `convert`:
  - records without `media` are set aside as messed up;
  - when a media record's first range has no `start`, that range gets empty
    `start` and `end`, and the repair is counted.
- **Conversion** (`conversion.dfy`). `convert_to_catcha` and one page of
  `convert`. `Catcha.normalize` is a parameter of the model.
- **Ordering** (`ordering.dfy`). The import order
  `sorted(..., key=lambda k: k['id'])`. It is stable, and it fails the way
  Python's comparison of mixed id types fails.
- **Compare** (`compare.dfy`). `compare_annojs`:
  - the second list is indexed by id;
  - each first-list record is classified as not found, passed or not similar,
    after stripping the fields known to drift.
- **Sanitize** (`sanitize.dfy`). `clean_to_alphanum_only`, both as written
  and as evidently intended.
- **Tombstone** (`tombstone.dfy`). `set_deleted`: every record gets
  `platform.deleted = true`.
- **Records** (`records.dfy`) is shared by all of the above:
  - JSON values, with no floats;
  - Python dict keys, where a boolean id hashes as an integer and a list or
    dict id is unhashable;
  - Python's `KeyError` and `TypeError`, and a failed fetch, modelled as the
    `Failure` side of a `Result`.

How the external calls are modelled:

- The search request is a fixed function `page(offset, limit)` that either
  yields the page's rows or fails. It is always called with the limit
  `SEARCH_PAGE_SIZE`, which is 500.
- `Catcha.normalize` is the parameter `normalize`.
- `AnnoJS.are_similar` is the parameter `similar`.
- Python's `str()` on a `uri` is the parameter `render`.

## Behaviour worth noting

- **Offset.** The offset advances by the number of new ids a page added
  (migrate.py:533-536), not by the number of rows the page returned.
- **Page ceiling.** Reaching the page ceiling ends the loop silently
  (migrate.py:517). Nothing is raised.
- **Which record is stripped.** The comparator strips only the first list's
  record (migrate.py:631-637). It strips it in place, so `passed` holds the
  stripped record, not the original.
- **Drift fields are required.** `del` raises `KeyError` when a drift field is
  absent. The record `{id:1, uri:5, archived:true, quote:""}`, when the second
  list holds id 1, stops `compare_annojs` with `KeyError('citation')`
  (migrate.py:632, `Compare.PartialDriftRaises`). The record
  `{id:2, text:"foo"}`, when the second list holds id 2, stops it with
  `KeyError('archived')` (migrate.py:631, `Compare.NoArchivedRaises`).

## Model

| member | source | states |
|---|---|---|
| Records.HashKey | migrate.py:529-532 | Using an id as a dict key succeeds exactly for scalars. `None` is its own key, distinct from every number and string. A boolean is the integer 0 or 1, an integer is itself, and a string is itself. |
| Records.IdKey | migrate.py:529 | `c['id']` raises KeyError exactly when `id` is absent. Otherwise it is the id's dict key. |
| Pull.AddRow | migrate.py:529-533 | Adding one row succeeds iff its id is hashable. The row is stored exactly when its id is new, and it is appended to the key order. Earlier entries, and the dict's validity, are kept. |
| Pull.EarliestIsFirst | migrate.py:528-533 | The record a first-seen dict holds under an id is the first row carrying that id. No earlier row has it. |
| Pull.MergePage | migrate.py:527-533 | Merging a page succeeds iff every row has a hashable id. A failure carries the error of the first row without one: KeyError when it has no `id`, TypeError when its id is a list or dict. |
| Pull.MergePageSpec | migrate.py:527-536 | After a page: the dict is valid, and the old key order is a prefix of the new one. `size` is the number of new ids. The keys are the old keys plus the page's ids. Old entries are unchanged, and each new entry is the first row with its id. |
| Pull.MergeAppend | migrate.py:515-540 | Merging page after page equals merging their concatenation, both in the dict and in the count of new rows. |
| Pull.RefetchAddsNothing | migrate.py:528-537 | Merging the same rows a second time adds nothing and leaves the dict unchanged. Re-fetched duplicates are discarded, which makes a rerun from an earlier offset harmless. |
| Pull.PullAll | migrate.py:512-540 | Every offset the loop requested is reported. The first is the start offset, and each later one is the start offset plus the number of distinct ids received from the pages before it. Every page before the last was received with usable ids and added at least one new id, so the offsets strictly increase. At most 49999 pages are requested. On success: one page was requested per loop pass, all of them usable, and the rows fetched are exactly those pages' rows. The dict holds exactly their ids, each under its first-fetched record. `current_len` is the number of distinct ids, and `offset` is the start offset plus that count. Either the last page added nothing (and the page at `offset` brings no new id), or the page counter reached 50000. Whenever the counter stopped short of 50000, `offset` is the offset of the last page requested, so that page is the one that added nothing. On failure, the last requested page either failed to arrive (a fetch failure) or held a row without a usable id, and the error is that of its first such row. In particular, a first page that fails to arrive fails the pull with a fetch failure, and a first page with a row lacking a usable id fails it with that row's KeyError or TypeError; on success every id of the first page is in the dict. |
| Pull.PullLoop | migrate.py:512-540 | The loop itself. An early return leaves it at the page that failed to arrive or whose merge raised, with the pages before it merged, every one of them adding an id. A normal end leaves it after fewer than 50000 pages, the last of which added nothing unless the counter reached 50000. When that last page added nothing, it was requested at the final `offset`. |
| Pull.Values | migrate.py:546 | `list(fullset_anno.values())` lists the stored records in the dict's insertion order, each filed under its own id. |
| Pull.ValuesUniqueIds | migrate.py:544-549 | The saved list has one record per key, with no id repeated. Its ids are exactly the dict's keys. |
| Pull.ValuesComplete | migrate.py:546 | Every stored record appears in the saved list. |
| Hammer.Repair | migrate.py:326-331 | A record without media is kept unchanged. The repair succeeds iff the record is well shaped or one of the shapes Python lets through (empty string or dict of ranges, a first range that is a list or string already mentioning `start`). A media record without `ranges` raises KeyError('ranges'); `len` of a number, boolean or null raises TypeError; every failure is a KeyError or TypeError. The repair applies exactly when the first range is an object without `start`, and it sets only that range's `start` and `end` to the empty string. No key is added or removed, and the result never needs the repair again. |
| Hammer.RepairIdempotent | migrate.py:326-331 | Repairing a repaired record changes nothing and counts nothing. |
| Hammer.HammerPage | migrate.py:323-334 | The hammering loop over a page succeeds iff every record's repair succeeds. On failure, the error is that of the first record whose repair fails. |
| Hammer.HammerPageSpec | migrate.py:323-334 | `annojs_messed` is exactly the records without media, in order. `annojs_ok` holds the media records in order, each in its repaired form, and none of them still needs the repair. The count grows by the number of records that needed the repair. |
| Conversion.ConvertToCatcha | migrate.py:159-172 | Succeeds iff every record normalizes. On success, the output holds one canonical record per input, in order, and the error list is empty. On failure, the error is that of the first record that fails. |
| Conversion.ConvertPage | migrate.py:322-344 | On one page, every input record is accounted for once. The messed-up list is the records without media. The i-th converted record is `normalize` applied to the i-th media record after its repair. The repair count grows by the records that needed it. The page succeeds iff every record can be hammered and every repaired media record normalizes. On failure, the error is that of the first record whose repair fails. If every repair succeeds, it is instead that of the first repaired media record that does not normalize. |
| Ordering.SortById | migrate.py:406-408 | Succeeds iff every record has `id` and, when there are at least two records, all ids are numbers or all are strings. A missing `id` raises KeyError. The output is a permutation of the input, sorted by id, and stable. |
| Ordering.SortPermutes | migrate.py:406-408 | The insertion sort returns a permutation of its input. |
| Ordering.SortSorted | migrate.py:406-408 | The insertion sort's output is ordered by id rank. |
| Ordering.SortStable | migrate.py:406-408 | Records with equal ids keep their relative input order. |
| Ordering.ParentsFirst | migrate.py:406-408 | In the import order, a record whose id is strictly smaller comes strictly earlier. So a parent comes before its replies whenever its id is smaller. |
| Compare.IndexById | migrate.py:621 | Building the index succeeds iff every second-list record has a hashable id. On failure, the error is that of the first record without one: KeyError('id') or TypeError. |
| Compare.IndexKeys | migrate.py:621 | The index's keys are exactly the ids of the second list. |
| Compare.IndexLastWins | migrate.py:621 | Under each id, the index holds the last record with that id. |
| Compare.Strip | migrate.py:631-637 | Stripping succeeds iff `archived`, `citation` and `deleted` are present, any `quote` has a length, and `uri` is present. The first of these checks to fail gives the error, in that order: KeyError for a missing field, TypeError for a `quote` without a length. The result has no drift field. `uri` is its string form. `quote` stays exactly when it is non-empty. Every other field is unchanged. |
| Compare.DropEmptyQuote | migrate.py:634-636 | An empty `quote` is removed, and every other field stays. `len` of a number, boolean or null raises TypeError. |
| Compare.Classify | migrate.py:629-644 | One pass succeeds iff the id can be read and, when the id is in the index, the record can be stripped. Otherwise it raises the error of the id or of the strip. A record is not found iff its id is absent, and it is then reported as it is. Otherwise the record filed is the stripped list-1 record: it is passed iff `similar` holds of it and the indexed record, and otherwise filed as not similar, paired with the indexed record. |
| Compare.ClassifyAll | migrate.py:629-644 | The loop succeeds iff every record's classification succeeds. On failure, the error is that of the first record whose classification fails. |
| Compare.CompareAnnojs | migrate.py:621-644 | The comparison succeeds iff the index can be built and every first-list record can be classified against it. If the index fails, its error (that of the first second-list record without a hashable id) is the comparison's. Otherwise the error is that of the first first-list record whose classification fails. |
| Compare.CompareAnnojsSpec | migrate.py:621-644 | The three lists together hold one entry per first-list record, with one pair per record in `not_similar`. Every list holds only records that fit it. Each first-list record's verdict is in its bucket. |
| Compare.CompareAnnojsLists | migrate.py:629-644 | Each list exactly, in list-1 order. `not_found` is the list-1 records whose id is not indexed, as they are. The j-th `passed` entry is the j-th list-1 record judged similar, stripped. The j-th pair of `not_similar` is the j-th list-1 record judged not similar, stripped, then the indexed record. |
| Compare.NotFoundBucket | migrate.py:629-644 | The loop's `not_found` list is the list-1 records whose id is not indexed, in order. |
| Compare.PassedBucket | migrate.py:638-639 | The loop's `passed` list is the stripped list-1 records judged similar, in order. |
| Compare.NotSimilarBucket | migrate.py:638-642 | The loop's `not_similar` list is, in order, each stripped list-1 record judged not similar followed by its indexed record. |
| Compare.PartialDriftRaises | migrate.py:629-633 | A found record with `archived` but without `citation` ends the comparison with KeyError('citation'). |
| Compare.NoArchivedRaises | migrate.py:629-631 | A found record without `archived` ends the comparison with KeyError('archived'). |
| Compare.FullDriftStripped | migrate.py:629-642 | With every drift field present and an empty quote, the record compared and filed is `{id, uri: str(uri)}`. |
| Sanitize.CleanToAlphanumOnly | migrate.py:181-182 | The output has the input's length, and every character is in `0-9` or `A`..`z`. A character stays iff it is in that class or is `_`. Otherwise it becomes `_`. |
| Sanitize.BracketSurvives | migrate.py:181-182 | The name `a[b` passes through unchanged, although `[` is not alphanumeric. |
| Sanitize.CleanIdempotent | migrate.py:181-182 | Sanitizing a sanitized name changes nothing. |
| Sanitize.CleanToAlphanumIntended | migrate.py:181-182 | With the intended class `A-Za-z0-9`, only letters, digits and `_` remain, and exactly the other characters become `_`. |
| Sanitize.BracketReplaced | migrate.py:181-182 | With the intended class, `a[b` becomes `a_b`. |
| Sanitize.IntendedIdempotent | migrate.py:181-182 | The intended sanitizer is idempotent. |
| Sanitize.AsWrittenVersusIntended | migrate.py:181-182 | The two sanitizers differ exactly on `[`, `\`, `]`, `^` and the backtick. |
| Tombstone.MarkDeleted | set_deleted.py:29 | Marking succeeds iff `platform` is an object; a missing `platform` raises KeyError. It sets `platform.deleted` to true. It keeps every other platform field and every other record field. |
| Tombstone.SetDeleted | set_deleted.py:24-31 | Succeeds iff every record can be marked. The output has the same length, and each position holds that input record marked. |
| Tombstone.SetDeletedFailsFirst | set_deleted.py:28-29 | A failed run reports the error of the first record that cannot be marked. |
| Tombstone.AllTombstones | set_deleted.py:28-29 | Every output record has `platform.deleted == true`. |
| Tombstone.MarkDeletedIdempotent | set_deleted.py:29 | Marking a marked record changes nothing. |
| Tombstone.SetDeletedIdempotent | set_deleted.py:24-31 | Running the utility on its own output gives the same output. |

## Left out

- The HTTP clients `CatchSearchClient` / `CatchSearchClient_v2`
  (migrate.py:47-156) and `make_token` (migrate.py:190-202), with their JWT
  token signing. They are network I/O and cryptography; the model replaces
  them with the `page` function.
- The fetch timeout and the retry-by-resumption policy. They are network
  behaviour; the model only records that a fetch can fail.
- `pull_from_source` and its page count `total_pages` (migrate.py:205-288 and
  493-495). This older variant stops on a reported total rather than on an
  empty page, and it is not part of the core.
- Everything about files: `save_to_file`, reading page files, file name
  matching with `fnmatch` and the page-number regex, writing the error,
  messed, sorted and comparator output files, and `_smart_open`. These are
  file I/O.
- The console messages (`click.echo`, `print`) and command-line parsing.
  They produce output only.
- The two ways a page can fail are not told apart. A failed request is caught,
  echoed, and ends the command normally (migrate.py:523-525). A page without
  `rows` instead raises an uncaught KeyError (migrate.py:528). The model
  reports both as a failed fetch, because `page` yields the rows or nothing.
- Any bound on the number of rows a page holds. The server is asked for at
  most `limit` rows, but nothing in the loop relies on that.
- JSON parsing and printing. The model starts from already-parsed values.
- `import_to_db`, `push_from_file` and `clear_anno_in_context_id`
  (migrate.py:351-354 and 554-605). They call the destination store through
  Django, which is outside this code.
- The internals of `Catcha.normalize`, `AnnoJS.are_similar` and Python's
  `str()`. These live in other packages, so the model takes them as
  parameters.
- Floating-point ids and field values. JSON numbers are modelled as integers
  only.
- Ordering.SortById: a list-valued id is treated as unorderable. Python
  compares two lists element by element instead.
- The body of `debug` after its sort (migrate.py:452-453). It only prints;
  its sort (migrate.py:449-450) is the one `Ordering.SortById` models.
- `legacy/import_into_catchpy.py` is not part of this model. It is an older
  import script.

## Findings

| source | as written | input that shows it | evidently intended | confidence | as-written member | corrected member |
|---|---|---|---|---|---|---|
| migrate.py:182 | The character class `[^A-za-z0-9]` spells the upper-case range as `A-z`, code points 65 to 122. So `[`, `\`, `]`, `^` and the backtick survive in output file names. | The context id `a[b` comes back as `a[b`. | `[^A-Za-z0-9]`, which would map `a[b` to `a_b`. | not executed | Sanitize.BracketSurvives | Sanitize.CleanToAlphanumIntended |

=== FILE: compare.dfy ===
/**
 The comparator of `compare_annojs`: every record of the first list is looked
 up by id in an index of the second list and classified as not found, passed
 (similar after stripping the fields known to drift) or not similar.
 `AnnoJS.are_similar` and Python's `str()` are not part of this model: they
 are the parameters `similar` and `render`.
 */
module Compare {
  import opened Records

  /** `{x['id']: x for x in annojs_list_2}` (migrate.py:621). A later record
      with a repeated id overwrites the earlier one. */
  function IndexById(list: seq<Obj>): (r: Result<map<Key, Obj>>)
    ensures r.Success? <==> AllKeyed(list)
    ensures r.Failure? ==> FirstUnkeyed(list, r.error)
  {
    if |list| == 0 then Success(map[])
    else
      var init, last := list[..|list| - 1], list[|list| - 1];
      assert forall i :: 0 <= i < |init| ==> list[i] == init[i];
      match IndexById(init)
      case Failure(e) =>
        assert forall i :: 0 <= i <= |init| ==> list[..i] == init[..i];
        Failure(e)
      case Success(m) =>
        match IdKey(last)
        case Failure(e) =>
          assert list[..|init|] == init;
          Failure(e)
        case Success(k) => Success(m[k := last])
  }

  /** The index holds exactly the ids of the list. */
  lemma {:induction false} IndexKeys(list: seq<Obj>)
    requires IndexById(list).Success?
    ensures IndexById(list).value.Keys == IdSet(list)
  {
    if |list| > 0 {
      var init, last := list[..|list| - 1], list[|list| - 1];
      assert list == init + [last];
      assert IdKey(list[|init|]).Success?;
      IndexKeys(init);
      IdSetSnoc(init, last);
    }
  }

  /** No record after position `j` has the same id. */
  ghost predicate LastWithId(list: seq<Obj>, j: int)
    requires 0 <= j < |list|
  {
    forall i :: j < i < |list| ==> IdKey(list[i]) != IdKey(list[j])
  }

  /** The index holds, under each id, the last record carrying it. */
  lemma {:induction false} IndexLastWins(list: seq<Obj>, j: nat)
    requires IndexById(list).Success? && j < |list| && LastWithId(list, j)
    ensures IdKey(list[j]).value in IndexById(list).value
    ensures IndexById(list).value[IdKey(list[j]).value] == list[j]
  {
    var init, last := list[..|list| - 1], list[|list| - 1];
    assert list == init + [last];
    assert IdKey(list[|init|]).Success?;
    var m := IndexById(init).value;
    assert IndexById(list) == Success(m[IdKey(last).value := last]);
    if j < |init| {
      assert list[j] == init[j];
      assert LastWithId(init, j) by {
        forall i | j < i < |init| ensures IdKey(init[i]) != IdKey(init[j]) {
          assert init[i] == list[i];
        }
      }
      IndexLastWins(init, j);
      assert IdKey(last) != IdKey(list[j]);
    }
  }

  /** The fields stripped from the first list's record before comparing. */
  const Drift: set<string> := {"archived", "citation", "deleted"}

  /** The stripping of a list-1 record (migrate.py:631-637): `archived`,
      `citation` and `deleted` are deleted, each raising KeyError when absent;
      an empty `quote` is deleted (`len` of a number, boolean or null raises
      TypeError); `uri` becomes its string form. Nothing else changes. */
  function Strip(a: Obj, render: Json -> string): (r: Result<Obj>)
    ensures r.Success? <==>
      && Drift <= a.Keys
      && ("quote" in a ==> Sized(a["quote"]))
      && "uri" in a
    ensures r.Success? ==> r.value.Keys !! Drift
    ensures r.Success? ==> "uri" in r.value && r.value["uri"] == JStr(render(a["uri"]))
    ensures r.Success? ==> ("quote" in r.value <==> "quote" in a && Length(a["quote"]) > 0)
    ensures r.Success? ==> forall k :: k in r.value ==> k in a
    ensures r.Success? ==>
      forall k :: k in a && k !in Drift && k != "uri" && k != "quote" ==> k in r.value && r.value[k] == a[k]
    ensures r.Success? && "quote" in r.value ==> r.value["quote"] == a["quote"]
    ensures "archived" !in a ==> r == Failure(MissingKey("archived"))
    ensures "archived" in a && "citation" !in a ==> r == Failure(MissingKey("citation"))
    ensures "archived" in a && "citation" in a && "deleted" !in a ==> r == Failure(MissingKey("deleted"))
    ensures Drift <= a.Keys && "quote" in a && !Sized(a["quote"]) ==> r.Failure? && r.error.WrongType?
    ensures Drift <= a.Keys && ("quote" in a ==> Sized(a["quote"])) && "uri" !in a ==> r == Failure(MissingKey("uri"))
  {
    if "archived" !in a then Failure(MissingKey("archived"))
    else if "citation" !in a then Failure(MissingKey("citation"))
    else if "deleted" !in a then Failure(MissingKey("deleted"))
    else
      match DropEmptyQuote(a - Drift)
      case Failure(e) => Failure(e)
      case Success(c) =>
        if "uri" !in c then Failure(MissingKey("uri"))
        else Success(c["uri" := JStr(render(c["uri"]))])
  }

  /** `if len(a['quote']) == 0: del a['quote']` (migrate.py:634-635). */
  function DropEmptyQuote(b: Obj): (r: Result<Obj>)
    ensures r.Success? <==> ("quote" in b ==> Sized(b["quote"]))
    ensures r.Success? ==> r.value.Keys == if "quote" in b && Length(b["quote"]) == 0 then b.Keys - {"quote"} else b.Keys
    ensures r.Success? ==> forall k :: k in r.value ==> r.value[k] == b[k]
    ensures r.Failure? ==> r.error.WrongType?
  {
    if "quote" in b && !Sized(b["quote"]) then Failure(WrongType("object has no len()"))
    else if "quote" in b && Length(b["quote"]) == 0 then Success(b - {"quote"})
    else Success(b)
  }

  /** Where one list-1 record goes. */
  datatype Verdict = NotFound(record: Obj) | Passed(record: Obj) | NotSimilar(record: Obj, other: Obj)

  /** What each verdict promises about the record it carries. */
  ghost predicate Fits(v: Verdict, index: map<Key, Obj>, similar: (Obj, Obj) -> bool) {
    match v
    case NotFound(a) => IdKey(a).Success? && IdKey(a).value !in index
    case Passed(s) => IdKey(s).Success? && IdKey(s).value in index && similar(s, index[IdKey(s).value])
    case NotSimilar(s, b) =>
      IdKey(s).Success? && IdKey(s).value in index && b == index[IdKey(s).value] && !similar(s, b)
  }

  /** A list-1 record whose id the index does not hold. */
  predicate Unindexed(a: Obj, index: map<Key, Obj>) {
    IdKey(a).Success? && IdKey(a).value !in index
  }

  /** A list-1 record found in the index whose stripped form `similar` judges
      against the indexed record with the outcome `verdict`. */
  predicate Judged(a: Obj, index: map<Key, Obj>, render: Json -> string, similar: (Obj, Obj) -> bool, verdict: bool) {
    && IdKey(a).Success? && IdKey(a).value in index
    && Strip(a, render).Success?
    && similar(Strip(a, render).value, index[IdKey(a).value]) == verdict
  }

  /** One pass of the `for a in annojs_list_1` loop (migrate.py:629-644). Only
      the list-1 record is stripped; the list-2 record is compared as it is. */
  function Classify(a: Obj, index: map<Key, Obj>, render: Json -> string, similar: (Obj, Obj) -> bool)
    : (r: Result<Verdict>)
    ensures r.Success? <==> IdKey(a).Success? && (IdKey(a).value in index ==> Strip(a, render).Success?)
    ensures r.Success? ==> Fits(r.value, index, similar)
    ensures r.Success? ==> (r.value.NotFound? <==> IdKey(a).value !in index)
    ensures r.Success? && r.value.NotFound? ==> r.value.record == a
    ensures r.Success? && !r.value.NotFound? ==> Strip(a, render) == Success(r.value.record)
    ensures r.Success? ==> (r.value.Passed? <==> Judged(a, index, render, similar, true))
    ensures r.Success? ==> (r.value.NotSimilar? <==> Judged(a, index, render, similar, false))
    ensures r.Success? && r.value.NotSimilar? ==> r.value.other == index[IdKey(a).value]
    ensures IdKey(a).Failure? ==> r == Failure(IdKey(a).error)
    ensures IdKey(a).Success? && IdKey(a).value in index && Strip(a, render).Failure? ==>
      r == Failure(Strip(a, render).error)
  {
    match IdKey(a)
    case Failure(e) => Failure(e)
    case Success(k) =>
      if k !in index then Success(NotFound(a))
      else
        match Strip(a, render)
        case Failure(e) => Failure(e)
        case Success(s) =>
          assert "id" in s && s["id"] == a["id"];
          var b := index[k];
          if similar(s, b) then Success(Passed(s)) else Success(NotSimilar(s, b))
  }

  /** The three output lists of `compare_annojs`. */
  datatype Comparison = Comparison(notFound: seq<Obj>, notSimilar: seq<Obj>, passed: seq<Obj>)

  /** The appends of one loop pass. */
  function Record(out: Comparison, v: Verdict): Comparison {
    match v
    case NotFound(a) => out.(notFound := out.notFound + [a])
    case Passed(s) => out.(passed := out.passed + [s])
    case NotSimilar(s, b) => out.(notSimilar := out.notSimilar + [s, b])
  }

  /** The verdict's records are in the lists. */
  ghost predicate InBucket(v: Verdict, out: Comparison) {
    match v
    case NotFound(a) => a in out.notFound
    case Passed(s) => s in out.passed
    case NotSimilar(s, b) => s in out.notSimilar && b in out.notSimilar
  }

  /** Every list holds only records that fit it; `notSimilar` holds pairs. */
  ghost predicate Consistent(out: Comparison, index: map<Key, Obj>, similar: (Obj, Obj) -> bool) {
    && |out.notSimilar| % 2 == 0
    && (forall x :: x in out.notFound ==> IdKey(x).Success? && IdKey(x).value !in index)
    && (forall x :: x in out.passed ==> IdKey(x).Success? && IdKey(x).value in index && similar(x, index[IdKey(x).value]))
    && (forall j :: 0 <= j < |out.notSimilar| / 2 ==>
          Fits(NotSimilar(out.notSimilar[2 * j], out.notSimilar[2 * j + 1]), index, similar))
  }

  /** The `for a in annojs_list_1` loop (migrate.py:629-644) as a fold, with
      the pass over one record as the parameter `classify`: the first record
      whose classification raises ends the comparison. */
  function ClassifyAll(list1: seq<Obj>, classify: Obj -> Result<Verdict>): (r: Result<Comparison>)
    ensures r.Success? <==> forall i :: 0 <= i < |list1| ==> classify(list1[i]).Success?
    ensures r.Failure? ==> FirstFailure(list1, classify, r.error)
  {
    if |list1| == 0 then Success(Comparison([], [], []))
    else
      var init, last := list1[..|list1| - 1], list1[|list1| - 1];
      assert forall i :: 0 <= i < |init| ==> list1[i] == init[i];
      match ClassifyAll(init, classify)
      case Failure(e) => Failure(e)
      case Success(out) =>
        match classify(last)
        case Failure(e) => Failure(e)
        case Success(v) => Success(Record(out, v))
  }

  /** The whole of `compare_annojs` without its file reads and writes
      (migrate.py:621-644): index the second list, then classify the first. */
  function CompareAnnojs(list1: seq<Obj>, list2: seq<Obj>, render: Json -> string, similar: (Obj, Obj) -> bool)
    : (r: Result<Comparison>)
    ensures r.Success? <==>
      && IndexById(list2).Success?
      && forall i :: 0 <= i < |list1| ==> Classify(list1[i], IndexById(list2).value, render, similar).Success?
    ensures IndexById(list2).Failure? ==> r.Failure? && r.error == IndexById(list2).error && FirstUnkeyed(list2, r.error)
    ensures r.Failure? && IndexById(list2).Success? ==>
      exists i :: && 0 <= i < |list1|
                  && (forall j :: 0 <= j < i ==> Classify(list1[j], IndexById(list2).value, render, similar).Success?)
                  && Classify(list1[i], IndexById(list2).value, render, similar) == Failure(r.error)
  {
    match IndexById(list2)
    case Failure(e) => Failure(e)
    case Success(index) => ClassifyAll(list1, a => Classify(a, index, render, similar))
  }

  /** The partition `compare_annojs` promises. Every list-1 record lands in one
      list: `notFound` holds it as it is, `passed` holds it stripped,
      `notSimilar` holds it stripped followed by its list-2 counterpart; the
      lists together hold one entry (one pair in `notSimilar`) per list-1
      record. */
  lemma CompareAnnojsSpec(list1: seq<Obj>, list2: seq<Obj>, render: Json -> string, similar: (Obj, Obj) -> bool)
    requires CompareAnnojs(list1, list2, render, similar).Success?
    ensures
      var out := CompareAnnojs(list1, list2, render, similar).value;
      && |out.notSimilar| % 2 == 0
      && |out.notFound| + |out.passed| + |out.notSimilar| / 2 == |list1|
    ensures
      var out, index := CompareAnnojs(list1, list2, render, similar).value, IndexById(list2).value;
      && (forall x :: x in out.notFound ==> x in list1 && IdKey(x).Success? && IdKey(x).value !in index)
      && (forall x :: x in out.passed ==> IdKey(x).Success? && IdKey(x).value in index && similar(x, index[IdKey(x).value]))
      && (forall j :: 0 <= j < |out.notSimilar| / 2 ==>
            var s, b := out.notSimilar[2 * j], out.notSimilar[2 * j + 1];
            IdKey(s).Success? && IdKey(s).value in index && b == index[IdKey(s).value] && !similar(s, b))
    ensures
      var out, index := CompareAnnojs(list1, list2, render, similar).value, IndexById(list2).value;
      forall i :: 0 <= i < |list1| ==> InBucket(Classify(list1[i], index, render, similar).value, out)
  {
    var index := IndexById(list2).value;
    var classify := a => Classify(a, index, render, similar);
    assert Sound(classify, index, similar);
    ClassifyAllConsistent(list1, classify, index, similar);
    forall i | 0 <= i < |list1|
      ensures InBucket(classify(list1[i]).value, ClassifyAll(list1, classify).value)
    {
      ClassifyAllFiles(list1, classify, i);
    }
  }

  /** The three lists of `compare_annojs` exactly, in list-1 order:
      `notFound` is the list-1 records the index does not hold, as they are;
      the j-th `passed` entry is the j-th list-1 record judged similar,
      stripped; the j-th pair of `notSimilar` is the j-th list-1 record judged
      not similar, stripped, then the indexed record it was compared with. */
  lemma CompareAnnojsLists(list1: seq<Obj>, list2: seq<Obj>, render: Json -> string, similar: (Obj, Obj) -> bool)
    requires CompareAnnojs(list1, list2, render, similar).Success?
    ensures
      var out, index := CompareAnnojs(list1, list2, render, similar).value, IndexById(list2).value;
      var same := Filter(list1, a => Judged(a, index, render, similar, true));
      var differ := Filter(list1, a => Judged(a, index, render, similar, false));
      && out.notFound == Filter(list1, a => Unindexed(a, index))
      && |out.passed| == |same|
      && (forall j :: 0 <= j < |same| ==> Strip(same[j], render) == Success(out.passed[j]))
      && |out.notSimilar| == 2 * |differ|
      && (forall j :: 0 <= j < |differ| ==>
            && Judged(differ[j], index, render, similar, false)
            && Strip(differ[j], render) == Success(out.notSimilar[2 * j])
            && out.notSimilar[2 * j + 1] == index[IdKey(differ[j]).value])
  {
    var index := IndexById(list2).value;
    NotFoundBucket(list1, index, render, similar);
    PassedBucket(list1, index, render, similar);
    NotSimilarBucket(list1, index, render, similar);
  }

  /** `notFound` is exactly the list-1 records the index does not hold, in
      list-1 order, each as it is. */
  lemma {:induction false} NotFoundBucket(list1: seq<Obj>, index: map<Key, Obj>, render: Json -> string, similar: (Obj, Obj) -> bool)
    requires ClassifyAll(list1, a => Classify(a, index, render, similar)).Success?
    ensures ClassifyAll(list1, a => Classify(a, index, render, similar)).value.notFound == Filter(list1, a => Unindexed(a, index))
  {
    var classify := a => Classify(a, index, render, similar);
    if |list1| > 0 {
      var init, last := list1[..|list1| - 1], list1[|list1| - 1];
      assert list1 == init + [last];
      assert classify(list1[|init|]).Success?;
      NotFoundBucket(init, index, render, similar);
      var out := ClassifyAll(init, classify).value;
      var v := classify(last).value;
      assert ClassifyAll(list1, classify) == Success(Record(out, v));
      FilterSnoc(init, last, a => Unindexed(a, index));
    }
  }

  /** The j-th `passed` entry is the j-th list-1 record judged similar,
      stripped. */
  lemma {:induction false} PassedBucket(list1: seq<Obj>, index: map<Key, Obj>, render: Json -> string, similar: (Obj, Obj) -> bool)
    requires ClassifyAll(list1, a => Classify(a, index, render, similar)).Success?
    ensures
      var out := ClassifyAll(list1, a => Classify(a, index, render, similar)).value;
      var same := Filter(list1, a => Judged(a, index, render, similar, true));
      && |out.passed| == |same|
      && (forall j :: 0 <= j < |same| ==> Strip(same[j], render) == Success(out.passed[j]))
  {
    var classify := a => Classify(a, index, render, similar);
    if |list1| > 0 {
      var init, last := list1[..|list1| - 1], list1[|list1| - 1];
      assert list1 == init + [last];
      assert classify(list1[|init|]).Success?;
      PassedBucket(init, index, render, similar);
      var out := ClassifyAll(init, classify).value;
      var v := classify(last).value;
      assert ClassifyAll(list1, classify) == Success(Record(out, v));
      FilterSnoc(init, last, a => Judged(a, index, render, similar, true));
    }
  }

  /** The j-th pair of `notSimilar` is the j-th list-1 record judged not
      similar, stripped, followed by the indexed record it was compared with. */
  lemma {:induction false} NotSimilarBucket(list1: seq<Obj>, index: map<Key, Obj>, render: Json -> string, similar: (Obj, Obj) -> bool)
    requires ClassifyAll(list1, a => Classify(a, index, render, similar)).Success?
    ensures
      var out := ClassifyAll(list1, a => Classify(a, index, render, similar)).value;
      var differ := Filter(list1, a => Judged(a, index, render, similar, false));
      && |out.notSimilar| == 2 * |differ|
      && (forall j :: 0 <= j < |differ| ==>
            && Judged(differ[j], index, render, similar, false)
            && Strip(differ[j], render) == Success(out.notSimilar[2 * j])
            && out.notSimilar[2 * j + 1] == index[IdKey(differ[j]).value])
  {
    var classify := a => Classify(a, index, render, similar);
    if |list1| > 0 {
      var init, last := list1[..|list1| - 1], list1[|list1| - 1];
      assert list1 == init + [last];
      assert classify(list1[|init|]).Success?;
      NotSimilarBucket(init, index, render, similar);
      var out := ClassifyAll(init, classify).value;
      var v := classify(last).value;
      assert ClassifyAll(list1, classify) == Success(Record(out, v));
      FilterSnoc(init, last, a => Judged(a, index, render, similar, false));
    }
  }

  /** Every verdict `classify` returns fits the index, and a record that is
      not found is reported as it is. */
  ghost predicate Sound(classify: Obj -> Result<Verdict>, index: map<Key, Obj>, similar: (Obj, Obj) -> bool) {
    forall a :: classify(a).Success? ==>
      Fits(classify(a).value, index, similar) && (classify(a).value.NotFound? ==> classify(a).value.record == a)
  }

  /** The lists stay consistent and account for one entry per record. */
  lemma {:induction false} ClassifyAllConsistent(list1: seq<Obj>, classify: Obj -> Result<Verdict>, index: map<Key, Obj>, similar: (Obj, Obj) -> bool)
    requires Sound(classify, index, similar)
    requires ClassifyAll(list1, classify).Success?
    ensures
      var out := ClassifyAll(list1, classify).value;
      && Consistent(out, index, similar)
      && |out.notFound| + |out.passed| + |out.notSimilar| / 2 == |list1|
      && (forall x :: x in out.notFound ==> x in list1)
  {
    if |list1| > 0 {
      var init, last := list1[..|list1| - 1], list1[|list1| - 1];
      assert list1 == init + [last];
      assert classify(list1[|init|]).Success?;
      ClassifyAllConsistent(init, classify, index, similar);
      var out := ClassifyAll(init, classify).value;
      var v := classify(last).value;
      RecordStep(out, v, index, similar);
    }
  }

  /** Each record's verdict is filed. */
  lemma {:induction false} ClassifyAllFiles(list1: seq<Obj>, classify: Obj -> Result<Verdict>, i: nat)
    requires ClassifyAll(list1, classify).Success?
    requires i < |list1|
    ensures classify(list1[i]).Success?
    ensures InBucket(classify(list1[i]).value, ClassifyAll(list1, classify).value)
  {
    var init, last := list1[..|list1| - 1], list1[|list1| - 1];
    assert classify(list1[|init|]).Success?;
    var out := ClassifyAll(init, classify).value;
    var v := classify(last).value;
    assert ClassifyAll(list1, classify) == Success(Record(out, v));
    if i < |init| {
      assert list1[i] == init[i];
      ClassifyAllFiles(init, classify, i);
      RecordKeeps(out, v, classify(init[i]).value);
    } else {
      RecordKeeps(out, v, v);
    }
  }

  /** One loop pass keeps the lists consistent, files the verdict, and keeps
      everything filed before. */
  lemma RecordStep(out: Comparison, v: Verdict, index: map<Key, Obj>, similar: (Obj, Obj) -> bool)
    requires Consistent(out, index, similar)
    requires Fits(v, index, similar)
    ensures Consistent(Record(out, v), index, similar)
    ensures var out' := Record(out, v);
      |out'.notFound| + |out'.passed| + |out'.notSimilar| / 2 == |out.notFound| + |out.passed| + |out.notSimilar| / 2 + 1
    ensures v.NotFound? ==> Record(out, v).notFound == out.notFound + [v.record]
    ensures !v.NotFound? ==> Record(out, v).notFound == out.notFound
  {
    if v.NotSimilar? {
      var ns, ns' := out.notSimilar, out.notSimilar + [v.record, v.other];
      forall j | 0 <= j < |ns'| / 2
        ensures Fits(NotSimilar(ns'[2 * j], ns'[2 * j + 1]), index, similar)
      {
        if j < |ns| / 2 {
          assert ns'[2 * j] == ns[2 * j] && ns'[2 * j + 1] == ns[2 * j + 1];
        } else {
          assert 2 * j == |ns|;
          assert ns'[2 * j] == v.record && ns'[2 * j + 1] == v.other;
        }
      }
    }
  }

  /** A loop pass files the verdict and keeps everything filed before. */
  lemma RecordKeeps(out: Comparison, v: Verdict, w: Verdict)
    ensures InBucket(v, Record(out, v))
    ensures InBucket(w, out) ==> InBucket(w, Record(out, v))
  {
  }

  /** A record with the drift fields only partly present: `del a['citation']`
      raises KeyError, so the comparison stops instead of passing the pair. */
  lemma PartialDriftRaises(render: Json -> string, similar: (Obj, Obj) -> bool)
    ensures
      var a := map["id" := JInt(1), "uri" := JInt(5), "archived" := JBool(true), "quote" := JStr("")];
      var b := map["id" := JInt(1), "uri" := JStr("5")];
      CompareAnnojs([a], [b], render, similar) == Failure(MissingKey("citation"))
  {
    var a := map["id" := JInt(1), "uri" := JInt(5), "archived" := JBool(true), "quote" := JStr("")];
    var b := map["id" := JInt(1), "uri" := JStr("5")];
    assert IndexById([b]) == Success(map[KInt(1) := b]);
    assert Classify(a, map[KInt(1) := b], render, similar) == Failure(MissingKey("citation"));
  }

  /** With every drift field present, the stripped record keeps only `id` and
      the rendered `uri`, and it is that record which is compared and filed. */
  lemma FullDriftStripped(render: Json -> string, similar: (Obj, Obj) -> bool)
    ensures
      var a := map["id" := JInt(1), "uri" := JInt(5), "archived" := JBool(true),
                   "citation" := JNull, "deleted" := JBool(false), "quote" := JStr("")];
      var b := map["id" := JInt(1), "uri" := JStr("5")];
      var s := map["id" := JInt(1), "uri" := JStr(render(JInt(5)))];
      Classify(a, map[KInt(1) := b], render, similar) == Success(if similar(s, b) then Passed(s) else NotSimilar(s, b))
  {
    var a := map["id" := JInt(1), "uri" := JInt(5), "archived" := JBool(true),
                 "citation" := JNull, "deleted" := JBool(false), "quote" := JStr("")];
    var s := map["id" := JInt(1), "uri" := JStr(render(JInt(5)))];
    var undrifted := map["id" := JInt(1), "uri" := JInt(5), "quote" := JStr("")];
    assert a - Drift == undrifted;
    assert Length(undrifted["quote"]) == 0;
    assert undrifted - {"quote"} == map["id" := JInt(1), "uri" := JInt(5)];
    assert DropEmptyQuote(undrifted) == Success(map["id" := JInt(1), "uri" := JInt(5)]);
    var c := map["id" := JInt(1), "uri" := JInt(5)];
    assert c["uri" := JStr(render(c["uri"]))] == s;
    assert "archived" in a && "citation" in a && "deleted" in a;
    assert Strip(a, render) == Success(s);
  }

  /** A found record without `archived`: the first `del` raises KeyError
      before any comparison, whatever the two records hold otherwise. */
  lemma NoArchivedRaises(render: Json -> string, similar: (Obj, Obj) -> bool)
    ensures
      var a := map["id" := JInt(2), "text" := JStr("foo")];
      var b := map["id" := JInt(2), "text" := JStr("bar")];
      CompareAnnojs([a], [b], render, similar) == Failure(MissingKey("archived"))
  {
    var b := map["id" := JInt(2), "text" := JStr("bar")];
    assert IndexById([b]) == Success(map[KInt(2) := b]);
  }
}

=== FILE: conversion.dfy ===
/**
 Conversion of legacy (AnnoJS) records to the canonical (Catcha) schema.
 `Catcha.normalize` is not part of this model: it is the parameter
 `normalize`, a function that either yields the canonical record or the
 exception it raises.
 */
module Conversion {
  import opened Records
  import opened Hammer

  /** `(catcha_list, error_list)` as `convert_to_catcha` returns them. */
  datatype Converted = Converted(catcha: seq<Obj>, errors: seq<Obj>)

  /** `convert_to_catcha` (migrate.py:159-172). A failing record is appended to
      `error_list` and the exception is re-raised, so the call either ends with
      the first failure or returns one canonical record per input, in order,
      with nothing in `error_list`. */
  method ConvertToCatcha(annojs: seq<Obj>, normalize: Obj -> Result<Obj>) returns (r: Result<Converted>)
    ensures r.Success? <==> forall i :: 0 <= i < |annojs| ==> normalize(annojs[i]).Success?
    ensures r.Success? ==>
      && |r.value.catcha| == |annojs|
      && (forall i :: 0 <= i < |annojs| ==> normalize(annojs[i]) == Success(r.value.catcha[i]))
      && r.value.errors == []
    ensures r.Failure? ==>
      exists i :: 0 <= i < |annojs| && normalize(annojs[i]) == Failure(r.error)
        && forall j :: 0 <= j < i ==> normalize(annojs[j]).Success?
  {
    var catcha: seq<Obj> := [];
    var errors: seq<Obj> := [];
    var i := 0;
    while i < |annojs|
      invariant 0 <= i <= |annojs|
      invariant |catcha| == i
      invariant forall j :: 0 <= j < i ==> normalize(annojs[j]) == Success(catcha[j])
      invariant errors == []
    {
      var c := normalize(annojs[i]);
      if c.Failure? {
        // `error_list.append(a)`: the list is lost with the re-raise
        errors := errors + [annojs[i]];
        return Failure(c.error);
      }
      catcha := catcha + [c.value];
      i := i + 1;
    }
    return Success(Converted(catcha, errors));
  }

  /** What `convert` produces for one page file: the canonical records, the
      conversion errors, the messed-up records, and the running repair count. */
  datatype PageOutcome = PageOutcome(catcha: seq<Obj>, errors: seq<Obj>, messed: seq<Obj>, missingStart: nat)

  /** One page of the `convert` command (migrate.py:322-344): the hammering
      loop, then `convert_and_save` on the records that have `media`
      (migrate.py:358-376, file writes left out). Every input record is
      accounted for exactly once. */
  method ConvertPage(content: seq<Obj>, missingStart: nat, normalize: Obj -> Result<Obj>)
    returns (r: Result<PageOutcome>)
    ensures r.Success? ==> |r.value.catcha| + |r.value.errors| + |r.value.messed| == |content|
    ensures r.Success? ==> r.value.errors == [] && r.value.messed == Filter(content, LacksMedia)
    ensures r.Success? ==> |r.value.catcha| == |Filter(content, HasMedia)|
    ensures r.Success? ==>
      forall i :: 0 <= i < |Filter(content, HasMedia)| ==>
        && Repair(Filter(content, HasMedia)[i]).Success?
        && normalize(Repair(Filter(content, HasMedia)[i]).value.record) == Success(r.value.catcha[i])
    ensures r.Success? ==> r.value.missingStart == missingStart + |Filter(content, NeedsStart)|
    ensures (forall i :: 0 <= i < |content| ==> Repair(content[i]).Success?) ==>
      (r.Success? <==>
        forall i :: 0 <= i < |Filter(content, HasMedia)| ==>
          && Repair(Filter(content, HasMedia)[i]).Success?
          && normalize(Repair(Filter(content, HasMedia)[i]).value.record).Success?)
    ensures (exists i :: 0 <= i < |content| && Repair(content[i]).Failure?) ==>
      r.Failure? && FirstFailure(content, Repair, r.error)
    ensures r.Failure? && (forall i :: 0 <= i < |content| ==> Repair(content[i]).Success?) ==>
      var media := Filter(content, HasMedia);
      exists i :: && 0 <= i < |media|
                  && (forall j :: 0 <= j < i ==> Repair(media[j]).Success? && normalize(Repair(media[j]).value.record).Success?)
                  && Repair(media[i]).Success? && normalize(Repair(media[i]).value.record) == Failure(r.error)
  {
    var hammered := HammerPage(content, missingStart);
    if hammered.Failure? {
      return Failure(hammered.error);
    }
    var h := hammered.value;
    ghost var media := Filter(content, HasMedia);
    Prepared(content, missingStart);
    var converted := ConvertToCatcha(h.ok, normalize);
    if converted.Failure? {
      ghost var i :| 0 <= i < |h.ok| && normalize(h.ok[i]).Failure?;
      assert Repair(media[i]).value.record == h.ok[i];
      return Failure(converted.error);
    }
    return Success(PageOutcome(converted.value.catcha, converted.value.errors, h.messed, h.missingStart));
  }

  /** What the hammering loop hands to the conversion. */
  lemma Prepared(content: seq<Obj>, missingStart: nat)
    requires HammerPage(content, missingStart).Success?
    ensures var h, media := HammerPage(content, missingStart).value, Filter(content, HasMedia);
      && |h.ok| + |h.messed| == |content|
      && h.messed == Filter(content, LacksMedia)
      && h.missingStart == missingStart + |Filter(content, NeedsStart)|
      && |h.ok| == |media|
      && forall j :: 0 <= j < |media| ==> Repair(media[j]).Success? && Repair(media[j]).value.record == h.ok[j]
  {
    HammerPageSpec(content, missingStart);
  }
}

=== FILE: hammer.dfy ===
/**
 The shape check and repair ("hammering fixes") that the `convert` command
 applies to each page before conversion: records without a `media` key are
 set aside as messed up; a media record whose first range lacks `start` gets
 `start` and `end` set to the empty string, and the repair is counted.
 */
module Hammer {
  import opened Records

  predicate HasMedia(c: Obj) {
    "media" in c
  }

  predicate LacksMedia(c: Obj) {
    "media" !in c
  }

  /** The records the repair rewrites: media-tagged, with `ranges` a non-empty
      list whose first range is an object without `start`. */
  predicate NeedsStart(c: Obj) {
    && "media" in c
    && "ranges" in c
    && c["ranges"].JArr?
    && |c["ranges"].items| > 0
    && c["ranges"].items[0].JObj?
    && "start" !in c["ranges"].items[0].fields
  }

  /** The records the loop can look at without raising: no media, or a list of
      ranges whose first range (if any) is an object. */
  predicate WellShaped(c: Obj) {
    "media" in c ==>
      && "ranges" in c
      && c["ranges"].JArr?
      && (|c["ranges"].items| > 0 ==> c["ranges"].items[0].JObj?)
  }

  /** A first range that `'start' not in ...` already finds `start` in without
      being an object: a list holding the string `start`, or a string
      containing it. Nothing is assigned to it. */
  predicate MentionsStart(v: Json) {
    || (v.JArr? && JStr("start") in v.items)
    || (v.JStr? && Substring("start", v.s))
  }

  /** The odd shapes the loop lets through without raising: an empty string or
      dict of ranges (`len` is 0), or a first range that is not an object but
      already mentions `start`. */
  predicate Tolerated(c: Obj) {
    && "media" in c
    && "ranges" in c
    && ( || ((c["ranges"].JStr? || c["ranges"].JObj?) && Length(c["ranges"]) == 0)
         || (c["ranges"].JArr? && |c["ranges"].items| > 0 && MentionsStart(c["ranges"].items[0])))
  }

  /** A range with `start` and `end` both set to the empty string. */
  function EmptyStart(range: map<string, Json>): map<string, Json> {
    range["start" := JStr("")]["end" := JStr("")]
  }

  /** A record after the repair, and whether the repair was applied (which
      increments `count_missing_start`). */
  datatype Fixed = Fixed(record: Obj, repaired: bool)

  /** The body of `for c in annojs_content` (migrate.py:326-331), with Python's
      own failures: a media record without `ranges` raises KeyError; `len` of a
      number, boolean or null raises TypeError; a non-empty string or dict of
      ranges and a first range that is not an object and lacks `start` raise on
      the subscript or the assignment. */
  function Repair(c: Obj): (r: Result<Fixed>)
    ensures "media" !in c ==> r == Success(Fixed(c, false))
    ensures r.Success? <==> WellShaped(c) || Tolerated(c)
    ensures "media" in c && "ranges" !in c ==> r == Failure(MissingKey("ranges"))
    ensures "media" in c && "ranges" in c && !Sized(c["ranges"]) ==> r.Failure? && r.error.WrongType?
    ensures r.Failure? ==> r.error.MissingKey? || r.error.WrongType?
    ensures r.Success? ==> (r.value.repaired <==> NeedsStart(c))
    ensures r.Success? && !r.value.repaired ==> r.value.record == c
    ensures r.Success? ==> r.value.record.Keys == c.Keys
    ensures r.Success? ==> forall k :: k in c && k != "ranges" ==> r.value.record[k] == c[k]
    ensures r.Success? && r.value.repaired ==>
      var xs := c["ranges"].items;
      var ys := r.value.record["ranges"];
      && ys.JArr?
      && |ys.items| == |xs|
      && ys.items[1..] == xs[1..]
      && ys.items[0] == JObj(EmptyStart(xs[0].fields))
    ensures r.Success? ==> !NeedsStart(r.value.record)
  {
    if "media" !in c then Success(Fixed(c, false))
    else if "ranges" !in c then Failure(MissingKey("ranges"))
    else
      match c["ranges"]
      case JArr(xs) =>
        if |xs| == 0 then Success(Fixed(c, false))
        else RepairFirst(c, xs)
      case JStr(s) =>
        if |s| == 0 then Success(Fixed(c, false))
        else Failure(WrongType("'str' object does not support item assignment"))
      case JObj(m) =>
        if |m| == 0 then Success(Fixed(c, false))
        else Failure(MissingKey("0"))
      case _ => Failure(WrongType("object has no len()"))
  }

  /** `if 'start' not in c['ranges'][0]` and the two assignments, for a
      non-empty list of ranges. */
  function RepairFirst(c: Obj, xs: seq<Json>): (r: Result<Fixed>)
    requires "ranges" in c && c["ranges"] == JArr(xs) && |xs| > 0
    ensures r.Success? <==> xs[0].JObj? || MentionsStart(xs[0])
    ensures r.Failure? ==> r.error.WrongType?
    ensures r.Success? ==> (r.value.repaired <==> xs[0].JObj? && "start" !in xs[0].fields)
  {
    match xs[0]
    case JObj(m) =>
      if "start" in m then Success(Fixed(c, false))
      else Success(Fixed(c["ranges" := JArr([JObj(EmptyStart(m))] + xs[1..])], true))
    case JArr(ys) =>
      if JStr("start") in ys then Success(Fixed(c, false))
      else Failure(WrongType("list indices must be integers or slices, not str"))
    case JStr(t) =>
      if Substring("start", t) then Success(Fixed(c, false))
      else Failure(WrongType("'str' object does not support item assignment"))
    case _ => Failure(WrongType("argument of type is not iterable"))
  }

  /** Repairing a repaired record changes nothing more. */
  lemma RepairIdempotent(c: Obj)
    requires Repair(c).Success?
    ensures Repair(Repair(c).value.record) == Success(Fixed(Repair(c).value.record, false))
  {
    var d := Repair(c).value.record;
    if "media" in d {
      assert "ranges" in d;
    }
  }

  /** What the hammering loop leaves for one page: the records to convert, the
      messed-up records, and the running `count_missing_start`. */
  datatype Hammered = Hammered(ok: seq<Obj>, messed: seq<Obj>, missingStart: nat)

  /** The hammering loop of `convert` (migrate.py:322-334) as a fold over the
      page. `missingStart` is the count carried in from earlier pages. The
      first record the loop cannot look at ends the command. */
  function HammerPage(content: seq<Obj>, missingStart: nat): (r: Result<Hammered>)
    ensures r.Success? <==> forall i :: 0 <= i < |content| ==> Repair(content[i]).Success?
    ensures r.Failure? ==> FirstFailure(content, Repair, r.error)
  {
    if |content| == 0 then Success(Hammered([], [], missingStart))
    else
      var init, c := content[..|content| - 1], content[|content| - 1];
      assert forall i :: 0 <= i < |init| ==> content[i] == init[i];
      match HammerPage(init, missingStart)
      case Failure(e) => Failure(e)
      case Success(h) =>
        match Repair(c)
        case Failure(e) => Failure(e)
        case Success(f) =>
          if "media" in c then
            Success(Hammered(h.ok + [f.record], h.messed, h.missingStart + (if f.repaired then 1 else 0)))
          else
            Success(Hammered(h.ok, h.messed + [c], h.missingStart))
  }

  /** `h` is what the loop holds after the records `seen`, starting from the
      count `base`: the records without media are set aside in order, the
      media records are kept in order, each in its repaired form, and the count
      grew by the number of records that needed the repair. */
  ghost predicate Hammers(seen: seq<Obj>, base: nat, h: Hammered) {
    var media := Filter(seen, HasMedia);
    && |h.ok| + |h.messed| == |seen|
    && h.messed == Filter(seen, LacksMedia)
    && |h.ok| == |media|
    && (forall j :: 0 <= j < |media| ==> Repair(media[j]) == Success(Fixed(h.ok[j], NeedsStart(media[j]))))
    && h.missingStart == base + |Filter(seen, NeedsStart)|
    && (forall x :: x in h.ok ==> HasMedia(x) && !NeedsStart(x))
  }

  /** The partition and repair count the hammering loop promises. */
  lemma {:induction false} HammerPageSpec(content: seq<Obj>, missingStart: nat)
    requires HammerPage(content, missingStart).Success?
    ensures Hammers(content, missingStart, HammerPage(content, missingStart).value)
  {
    if |content| > 0 {
      var init, c := content[..|content| - 1], content[|content| - 1];
      assert content == init + [c];
      assert Repair(content[|init|]).Success?;
      HammerPageSpec(init, missingStart);
      var h := HammerPage(init, missingStart).value;
      HammerStep(init, missingStart, h.ok, h.messed, h.missingStart, c, Repair(c).value);
    }
  }

  /** One pass of the hammering loop keeps its account of the page. */
  lemma HammerStep(seen: seq<Obj>, base: nat, ok: seq<Obj>, messed: seq<Obj>, count: nat, c: Obj, f: Fixed)
    requires Hammers(seen, base, Hammered(ok, messed, count))
    requires Repair(c) == Success(f)
    ensures "media" in c ==>
      Hammers(seen + [c], base, Hammered(ok + [f.record], messed, count + (if f.repaired then 1 else 0)))
    ensures "media" !in c ==> Hammers(seen + [c], base, Hammered(ok, messed + [c], count))
  {
    FilterSnoc(seen, c, LacksMedia);
    FilterSnoc(seen, c, NeedsStart);
    FilterSnoc(seen, c, HasMedia);
    if "media" in c {
      KeepStep(seen, ok, c, f);
    }
  }

  /** A media record's repaired form joins the records kept for conversion. */
  lemma KeepStep(seen: seq<Obj>, ok: seq<Obj>, c: Obj, f: Fixed)
    requires "media" in c && Repair(c) == Success(f)
    requires |ok| == |Filter(seen, HasMedia)|
    requires forall j :: 0 <= j < |ok| ==>
      Repair(Filter(seen, HasMedia)[j]) == Success(Fixed(ok[j], NeedsStart(Filter(seen, HasMedia)[j])))
    requires forall x :: x in ok ==> HasMedia(x) && !NeedsStart(x)
    ensures |ok + [f.record]| == |Filter(seen + [c], HasMedia)|
    ensures forall j :: 0 <= j < |ok| + 1 ==>
      Repair(Filter(seen + [c], HasMedia)[j]) == Success(Fixed((ok + [f.record])[j], NeedsStart(Filter(seen + [c], HasMedia)[j])))
    ensures forall x :: x in ok + [f.record] ==> HasMedia(x) && !NeedsStart(x)
  {
    FilterSnoc(seen, c, HasMedia);
    KeepPositions(Filter(seen, HasMedia), ok, c, f);
    assert "media" in f.record;
    assert forall x :: x in ok + [f.record] ==> x in ok || x == f.record;
  }

  /** Appending a record and its repaired form keeps the two lists aligned. */
  lemma KeepPositions(media: seq<Obj>, ok: seq<Obj>, c: Obj, f: Fixed)
    requires Repair(c) == Success(f)
    requires |ok| == |media|
    requires forall j :: 0 <= j < |ok| ==> Repair(media[j]) == Success(Fixed(ok[j], NeedsStart(media[j])))
    ensures forall j :: 0 <= j < |ok| + 1 ==>
      Repair((media + [c])[j]) == Success(Fixed((ok + [f.record])[j], NeedsStart((media + [c])[j])))
  {
    forall j | 0 <= j < |ok| + 1
      ensures Repair((media + [c])[j]) == Success(Fixed((ok + [f.record])[j], NeedsStart((media + [c])[j])))
    {
      if j < |media| {
        assert (media + [c])[j] == media[j] && (ok + [f.record])[j] == ok[j];
      } else {
        assert (media + [c])[j] == c && (ok + [f.record])[j] == f.record;
      }
    }
  }
}

=== FILE: ordering.dfy ===
/**
 The import order: `sorted(catcha_content, key=lambda k: k['id'])` in
 `push_to_target` and `debug`. Python's sort is stable; it computes every key
 first (so a record without `id` raises KeyError even when alone), and it
 raises TypeError when two ids it must compare are of unorderable types.
 Ordering by id stands in for "parents before replies": the source allocates
 a reply's id after its parent's.
 */
module Ordering {
  import opened Records

  /** How Python orders an id: integers and booleans as numbers, strings by
      code point; any other value cannot be compared with `<`. */
  datatype Rank = Num(n: int) | Text(t: string) | Unordered

  function RankOf(v: Json): Rank {
    match v
    case JInt(i) => Num(i)
    case JBool(b) => Num(if b then 1 else 0)
    case JStr(s) => Text(s)
    case _ => Unordered
  }

  function IdRank(c: Obj): Rank {
    if "id" in c then RankOf(c["id"]) else Unordered
  }

  /** Python's string `<=`: lexicographic by code point. */
  predicate LexLe(a: string, b: string)
    decreases |a|
  {
    |a| == 0 || (|b| > 0 && (a[0] < b[0] || (a[0] == b[0] && LexLe(a[1..], b[1..]))))
  }

  /** A total preorder on ranks: numbers, then strings, then the rest. Only
      numbers among numbers and strings among strings are ever compared. */
  predicate RankLe(a: Rank, b: Rank) {
    match (a, b)
    case (Num(x), Num(y)) => x <= y
    case (Text(x), Text(y)) => LexLe(x, y)
    case (Num(_), _) => true
    case (Text(_), Num(_)) => false
    case (Text(_), Unordered) => true
    case (Unordered, Unordered) => true
    case (Unordered, _) => false
  }

  lemma {:induction false} LexRefl(a: string)
    ensures LexLe(a, a)
  {
    if |a| > 0 {
      LexRefl(a[1..]);
    }
  }

  lemma {:induction false} LexTotal(a: string, b: string)
    ensures LexLe(a, b) || LexLe(b, a)
    decreases |a|
  {
    if |a| > 0 && |b| > 0 && a[0] == b[0] {
      LexTotal(a[1..], b[1..]);
    }
  }

  lemma {:induction false} LexTrans(a: string, b: string, c: string)
    requires LexLe(a, b) && LexLe(b, c)
    ensures LexLe(a, c)
    decreases |a|
  {
    if |a| > 0 && a[0] == b[0] && b[0] == c[0] {
      LexTrans(a[1..], b[1..], c[1..]);
    }
  }

  lemma {:induction false} LexAntisym(a: string, b: string)
    requires LexLe(a, b) && LexLe(b, a)
    ensures a == b
    decreases |a|
  {
    if |a| > 0 {
      LexAntisym(a[1..], b[1..]);
      assert a == [a[0]] + a[1..];
      assert b == [b[0]] + b[1..];
    }
  }

  lemma RankRefl(a: Rank)
    ensures RankLe(a, a)
  {
    if a.Text? {
      LexRefl(a.t);
    }
  }

  lemma RankTotal(a: Rank, b: Rank)
    ensures RankLe(a, b) || RankLe(b, a)
  {
    if a.Text? && b.Text? {
      LexTotal(a.t, b.t);
    }
  }

  lemma RankTrans(a: Rank, b: Rank, c: Rank)
    requires RankLe(a, b) && RankLe(b, c)
    ensures RankLe(a, c)
  {
    if a.Text? && b.Text? && c.Text? {
      LexTrans(a.t, b.t, c.t);
    }
  }

  lemma RankAntisym(a: Rank, b: Rank)
    requires RankLe(a, b) && RankLe(b, a)
    ensures a == b
  {
    if a.Text? && b.Text? {
      LexAntisym(a.t, b.t);
    }
  }

  predicate Sorted(s: seq<Obj>) {
    forall i, j :: 0 <= i < j < |s| ==> RankLe(IdRank(s[i]), IdRank(s[j]))
  }

  /** The records of `s` whose id has rank `k`, in order. */
  function WithRank(s: seq<Obj>, k: Rank): seq<Obj> {
    if |s| == 0 then []
    else (if IdRank(s[0]) == k then [s[0]] else []) + WithRank(s[1..], k)
  }

  /** Inserts `x` before the first record whose id is not smaller, so `x`
      stays ahead of records with an equal id that came after it. */
  function Insert(x: Obj, s: seq<Obj>): (r: seq<Obj>)
    ensures |r| == |s| + 1
  {
    if |s| == 0 then [x]
    else if RankLe(IdRank(x), IdRank(s[0])) then [x] + s
    else [s[0]] + Insert(x, s[1..])
  }

  /** A stable insertion sort by id rank. */
  function Sort(s: seq<Obj>): (r: seq<Obj>)
    ensures |r| == |s|
  {
    if |s| == 0 then []
    else Insert(s[0], Sort(s[1..]))
  }

  lemma {:induction false} InsertPermutes(x: Obj, s: seq<Obj>)
    ensures multiset(Insert(x, s)) == multiset(s) + multiset{x}
  {
    if |s| > 0 && !RankLe(IdRank(x), IdRank(s[0])) {
      InsertPermutes(x, s[1..]);
      assert s == [s[0]] + s[1..];
    }
  }

  /** The sort neither loses nor invents a record. */
  lemma {:induction false} SortPermutes(s: seq<Obj>)
    ensures multiset(Sort(s)) == multiset(s)
  {
    if |s| > 0 {
      SortPermutes(s[1..]);
      InsertPermutes(s[0], Sort(s[1..]));
      assert s == [s[0]] + s[1..];
      assert multiset(s) == multiset{s[0]} + multiset(s[1..]);
    }
  }

  /** Every record of `t` has an id of rank at least `lo`. */
  predicate AtLeast(lo: Rank, t: seq<Obj>) {
    forall i :: 0 <= i < |t| ==> RankLe(lo, IdRank(t[i]))
  }

  /** A sorted list stays sorted with a record in front that is no larger. */
  lemma ConsSorted(y: Obj, t: seq<Obj>)
    requires Sorted(t) && AtLeast(IdRank(y), t)
    ensures Sorted([y] + t)
  {
    var r := [y] + t;
    forall i, j | 0 <= i < j < |r| ensures RankLe(IdRank(r[i]), IdRank(r[j])) {
      assert r[j] == t[j - 1];
      if i > 0 {
        assert r[i] == t[i - 1];
      }
    }
  }

  /** The first record of a sorted list bounds the rest from below. */
  lemma HeadBounds(lo: Rank, t: seq<Obj>)
    requires Sorted(t) && |t| > 0 && RankLe(lo, IdRank(t[0]))
    ensures AtLeast(lo, t)
  {
    forall i | 0 <= i < |t| ensures RankLe(lo, IdRank(t[i])) {
      if i > 0 {
        RankTrans(lo, IdRank(t[0]), IdRank(t[i]));
      }
    }
  }

  /** Inserting a record no smaller than `lo` keeps `lo` a lower bound. */
  lemma {:induction false} InsertAtLeast(lo: Rank, x: Obj, s: seq<Obj>)
    requires AtLeast(lo, s) && RankLe(lo, IdRank(x))
    ensures AtLeast(lo, Insert(x, s))
  {
    if |s| > 0 && !RankLe(IdRank(x), IdRank(s[0])) {
      InsertAtLeast(lo, x, s[1..]);
      var r := Insert(x, s);
      assert r == [s[0]] + Insert(x, s[1..]);
      forall i | 0 <= i < |r| ensures RankLe(lo, IdRank(r[i])) {
        if i > 0 {
          assert r[i] == Insert(x, s[1..])[i - 1];
        }
      }
    } else if |s| > 0 {
      var r := Insert(x, s);
      assert r == [x] + s;
      forall i | 0 <= i < |r| ensures RankLe(lo, IdRank(r[i])) {
        if i > 0 {
          assert r[i] == s[i - 1];
        }
      }
    }
  }

  lemma {:induction false} InsertSorted(x: Obj, s: seq<Obj>)
    requires Sorted(s)
    ensures Sorted(Insert(x, s))
  {
    if |s| == 0 {
    } else if RankLe(IdRank(x), IdRank(s[0])) {
      HeadBounds(IdRank(x), s);
      ConsSorted(x, s);
    } else {
      RankTotal(IdRank(x), IdRank(s[0]));
      RankRefl(IdRank(s[0]));
      var tail := s[1..];
      assert Sorted(tail) by {
        forall i, j | 0 <= i < j < |tail| ensures RankLe(IdRank(tail[i]), IdRank(tail[j])) {
          assert tail[i] == s[i + 1] && tail[j] == s[j + 1];
        }
      }
      HeadBounds(IdRank(s[0]), s);
      assert AtLeast(IdRank(s[0]), tail) by {
        forall i | 0 <= i < |tail| ensures RankLe(IdRank(s[0]), IdRank(tail[i])) {
          assert tail[i] == s[i + 1];
        }
      }
      InsertSorted(x, tail);
      InsertAtLeast(IdRank(s[0]), x, tail);
      ConsSorted(s[0], Insert(x, tail));
    }
  }

  /** The records of rank `k` in a list with one record in front. */
  lemma WithRankCons(y: Obj, t: seq<Obj>, k: Rank)
    ensures WithRank([y] + t, k) == (if IdRank(y) == k then [y] else []) + WithRank(t, k)
  {
    assert ([y] + t)[1..] == t;
  }

  /** Inserting `x` puts it first among the records of its own rank and
      leaves the other ranks as they were. */
  lemma {:induction false} InsertStable(x: Obj, s: seq<Obj>, k: Rank)
    ensures WithRank(Insert(x, s), k) == (if IdRank(x) == k then [x] else []) + WithRank(s, k)
  {
    if |s| == 0 {
      WithRankCons(x, s, k);
      assert [x] + s == [x];
    } else if RankLe(IdRank(x), IdRank(s[0])) {
      WithRankCons(x, s, k);
    } else {
      InsertStable(x, s[1..], k);
      if IdRank(s[0]) == IdRank(x) {
        RankRefl(IdRank(x));
      }
      PassOver(x, s, k);
    }
  }

  /** `x` passed over the first record: that record keeps its place ahead of
      `x`, which is harmless because the two never share a rank. */
  lemma PassOver(x: Obj, s: seq<Obj>, k: Rank)
    requires |s| > 0 && !RankLe(IdRank(x), IdRank(s[0])) && IdRank(s[0]) != IdRank(x)
    requires WithRank(Insert(x, s[1..]), k) == (if IdRank(x) == k then [x] else []) + WithRank(s[1..], k)
    ensures WithRank(Insert(x, s), k) == (if IdRank(x) == k then [x] else []) + WithRank(s, k)
  {
    var rest := Insert(x, s[1..]);
    var mine: seq<Obj> := if IdRank(x) == k then [x] else [];
    var head: seq<Obj> := if IdRank(s[0]) == k then [s[0]] else [];
    assert Insert(x, s) == [s[0]] + rest;
    WithRankCons(s[0], rest, k);
    WithRankCons(s[0], s[1..], k);
    assert [s[0]] + s[1..] == s;
    SwapEmpty(head, mine, WithRank(s[1..], k));
  }

  /** Two lists, one of them empty, can be put in front in either order. */
  lemma SwapEmpty<T>(h: seq<T>, m: seq<T>, t: seq<T>)
    requires h == [] || m == []
    ensures h + (m + t) == m + (h + t)
  {
    if h == [] {
      assert h + (m + t) == m + t;
      assert h + t == t;
    } else {
      assert m + t == t;
      assert m + (h + t) == h + t;
    }
  }

  lemma {:induction false} SortSorted(s: seq<Obj>)
    ensures Sorted(Sort(s))
  {
    if |s| > 0 {
      SortSorted(s[1..]);
      InsertSorted(s[0], Sort(s[1..]));
    }
  }

  lemma {:induction false} SortStable(s: seq<Obj>, k: Rank)
    ensures WithRank(Sort(s), k) == WithRank(s, k)
  {
    if |s| > 0 {
      SortStable(s[1..], k);
      InsertStable(s[0], Sort(s[1..]), k);
    }
  }

  /** All ids are numbers, or all are strings: Python can compare any two. */
  predicate Comparable(s: seq<Obj>) {
    || (forall i :: 0 <= i < |s| ==> IdRank(s[i]).Num?)
    || (forall i :: 0 <= i < |s| ==> IdRank(s[i]).Text?)
  }

  /** `sorted(catcha_content, key=lambda k: k['id'])` (migrate.py:406-408,
      repeated at 449-450): a stable permutation ordered by id. A comparison
      sort must compare every pair that ends up adjacent, so with two or more
      records it raises exactly when the ids are not all mutually orderable. */
  function SortById(s: seq<Obj>): (r: Result<seq<Obj>>)
    ensures r.Success? <==> (forall i :: 0 <= i < |s| ==> "id" in s[i]) && (|s| < 2 || Comparable(s))
    ensures r.Failure? && (exists i :: 0 <= i < |s| && "id" !in s[i]) ==> r.error == MissingKey("id")
    ensures r.Success? ==> multiset(r.value) == multiset(s)
    ensures r.Success? ==> Sorted(r.value)
    ensures r.Success? ==> forall k :: WithRank(r.value, k) == WithRank(s, k)
  {
    if exists i :: 0 <= i < |s| && "id" !in s[i] then Failure(MissingKey("id"))
    else if |s| >= 2 && !Comparable(s) then Failure(WrongType("'<' not supported between instances"))
    else
      SortSorted(s);
      SortPermutes(s);
      assert forall k :: WithRank(Sort(s), k) == WithRank(s, k) by {
        forall k ensures WithRank(Sort(s), k) == WithRank(s, k) {
          SortStable(s, k);
        }
      }
      Success(Sort(s))
  }

  /** The import order never puts a record after one with a larger id: under
      the source's assumption that a reply's id exceeds its parent's, every
      parent is imported before its replies. */
  lemma ParentsFirst(s: seq<Obj>, i: int, j: int)
    requires SortById(s).Success?
    requires 0 <= i < |SortById(s).value| && 0 <= j < |SortById(s).value|
    requires var out := SortById(s).value;
      RankLe(IdRank(out[i]), IdRank(out[j])) && IdRank(out[i]) != IdRank(out[j])
    ensures i < j
  {
    var out := SortById(s).value;
    if j <= i {
      if j < i {
        RankAntisym(IdRank(out[i]), IdRank(out[j]));
      }
    }
  }
}

=== FILE: pull.dfy ===
/**
 The dedup accumulator of `pull_all` / `pull_all_v2`: pages of search results
 are fetched at an advancing offset and merged into `fullset_anno`, a dict from
 id to the first record seen with that id. The remote search is a fixed
 oracle `page(offset, limit)`; its failure (HTTP error, timeout, bad JSON, no `rows`)
 ends the command.
 */
module Pull {
  import opened Records

  /** `SEARCH_PAGE_SIZE`, the `limit` sent with every page request. */
  const PageSize: nat := 500

  /** The loop runs only while `page_no` is below this value. */
  const PageCeiling: nat := 50000

  /** `fullset_anno`: a Python dict, so its keys keep their insertion order. */
  datatype Corpus = Corpus(order: seq<Key>, entries: map<Key, Obj>)

  /** The keys in `order` are the dict's keys, each once, and every record is
      filed under its own id. */
  predicate Valid(c: Corpus) {
    && Distinct(c.order)
    && (forall k :: k in c.entries ==> k in c.order)
    && (forall k :: k in c.order ==> k in c.entries)
    && (forall k :: k in c.entries ==> IdKey(c.entries[k]) == Success(k))
  }

  /** The first record of `rows` whose id is `k`, if any: the record a dict
      that keeps first-seen entries holds under `k`. */
  function Earliest(rows: seq<Obj>, k: Key): (r: Option<Obj>)
    ensures r.Some? <==> k in IdSet(rows)
    ensures r.Some? ==> IdKey(r.value) == Success(k)
  {
    if |rows| == 0 then None
    else
      var init, last := rows[..|rows| - 1], rows[|rows| - 1];
      if Earliest(init, k).Some? then Earliest(init, k)
      else if IdKey(last) == Success(k) then Some(last)
      else None
  }

  lemma EarliestSnoc(rows: seq<Obj>, row: Obj, k: Key)
    ensures Earliest(rows + [row], k) ==
      if Earliest(rows, k).Some? then Earliest(rows, k)
      else if IdKey(row) == Success(k) then Some(row)
      else None
  {
    assert (rows + [row])[..|rows|] == rows;
  }

  /** `Earliest` is the first occurrence: no earlier record has the same id. */
  lemma {:induction false} EarliestIsFirst(rows: seq<Obj>, k: Key)
    requires Earliest(rows, k).Some?
    ensures exists j :: (0 <= j < |rows| && rows[j] == Earliest(rows, k).value &&
                         forall i :: 0 <= i < j ==> IdKey(rows[i]) != Success(k))
  {
    var init, last := rows[..|rows| - 1], rows[|rows| - 1];
    assert forall i :: 0 <= i < |init| ==> rows[i] == init[i];
    if Earliest(init, k).Some? {
      EarliestIsFirst(init, k);
      var j :| 0 <= j < |init| && init[j] == Earliest(init, k).value
        && forall i :: 0 <= i < j ==> IdKey(init[i]) != Success(k);
      assert rows[j] == init[j];
    } else {
      IdSetMeaning(init);
      assert rows[|rows| - 1] == Earliest(rows, k).value;
    }
  }

  /** One row of a page (migrate.py:529-533): a repeated id leaves the dict as
      it is, so the first-seen record stays; a new id is inserted. The flag says
      whether `size` grows. */
  function AddRow(c: Corpus, row: Obj): (r: Result<(Corpus, bool)>)
    ensures r.Success? <==> IdKey(row).Success?
    ensures r.Success? ==>
      var (c', added) := r.value;
      var k := IdKey(row).value;
      && (Valid(c) ==> Valid(c'))
      && (added <==> k !in c.entries)
      && c.order <= c'.order
      && |c'.order| == |c.order| + (if added then 1 else 0)
      && c'.entries.Keys == c.entries.Keys + {k}
      && (forall j :: j in c.entries ==> c'.entries[j] == c.entries[j])
      && (added ==> c'.entries[k] == row)
  {
    match IdKey(row)
    case Failure(e) => Failure(e)
    case Success(k) =>
      if k in c.entries then Success((c, false))
      else Success((Corpus(c.order + [k], c.entries[k := row]), true))
  }

  /** The `for c in page_content['rows']` loop (migrate.py:527-533) as a fold
      over the rows. `size` counts only the newly inserted rows. A row without
      a hashable `id` raises, and the exception is not caught. */
  function MergePage(c: Corpus, rows: seq<Obj>): (r: Result<(Corpus, nat)>)
    ensures r.Success? <==> AllKeyed(rows)
    ensures r.Failure? ==> r.error.MissingKey? || r.error.WrongType?
    ensures r.Failure? ==> FirstUnkeyed(rows, r.error)
  {
    if |rows| == 0 then Success((c, 0))
    else
      var init, last := rows[..|rows| - 1], rows[|rows| - 1];
      assert forall i :: 0 <= i < |init| ==> rows[i] == init[i];
      match MergePage(c, init)
      case Failure(e) =>
        assert forall i :: 0 <= i <= |init| ==> rows[..i] == init[..i];
        Failure(e)
      case Success((cur, size)) =>
        match AddRow(cur, last)
        case Failure(e) =>
          assert rows[..|init|] == init;
          Failure(e)
        case Success((next, added)) => Success((next, if added then size + 1 else size))
  }

  /** `cur` and `size` are what merging `rows` into `c` gives: `c`'s keys keep
      their order and records, each new id is appended once with the first
      record that carried it, and `size` counts the new ids. */
  predicate Merged(c: Corpus, rows: seq<Obj>, cur: Corpus, size: nat) {
    && Valid(cur)
    && c.order <= cur.order
    && size == |cur.order| - |c.order|
    && cur.entries.Keys == c.entries.Keys + IdSet(rows)
    && (forall k :: k in c.entries ==> cur.entries[k] == c.entries[k])
    && (forall k :: k in cur.entries && k !in c.entries ==> Earliest(rows, k) == Some(cur.entries[k]))
  }

  /** The dedup contract of a page: merged into a consistent dict, the rows
      keep every existing record, add each new id once with its first-seen
      record, and `size` counts the new ids. */
  lemma {:induction false} MergePageSpec(c: Corpus, rows: seq<Obj>)
    requires Valid(c) && MergePage(c, rows).Success?
    ensures Merged(c, rows, MergePage(c, rows).value.0, MergePage(c, rows).value.1)
  {
    if |rows| > 0 {
      var init, last := rows[..|rows| - 1], rows[|rows| - 1];
      assert rows == init + [last];
      assert IdKey(rows[|init|]).Success?;
      MergePageSpec(c, init);
      var (cur, size) := MergePage(c, init).value;
      var (next, added) := AddRow(cur, last).value;
      MergeStep(c, init, cur, size, last, next, added);
    }
  }

  /** One row keeps the fold's account of the dict. */
  lemma MergeStep(c: Corpus, seen: seq<Obj>, cur: Corpus, size: nat, row: Obj, next: Corpus, added: bool)
    requires Valid(c) && Merged(c, seen, cur, size)
    requires AddRow(cur, row) == Success((next, added))
    ensures Merged(c, seen + [row], next, size + (if added then 1 else 0))
  {
    MergeStepKeys(c, seen, cur, size, row, next, added);
    MergeStepEarliest(c, seen, cur, size, row, next, added);
  }

  lemma MergeStepKeys(c: Corpus, seen: seq<Obj>, cur: Corpus, size: nat, row: Obj, next: Corpus, added: bool)
    requires Valid(c) && Merged(c, seen, cur, size)
    requires AddRow(cur, row) == Success((next, added))
    ensures Valid(next) && c.order <= next.order
    ensures size + (if added then 1 else 0) == |next.order| - |c.order|
    ensures next.entries.Keys == c.entries.Keys + IdSet(seen + [row])
    ensures forall k :: k in c.entries ==> next.entries[k] == c.entries[k]
  {
    MergeStepOrder(c, seen, cur, size, row, next, added);
    MergeStepEntries(c, seen, cur, size, row, next, added);
  }

  lemma MergeStepOrder(c: Corpus, seen: seq<Obj>, cur: Corpus, size: nat, row: Obj, next: Corpus, added: bool)
    requires Merged(c, seen, cur, size)
    requires AddRow(cur, row) == Success((next, added))
    ensures Valid(next) && c.order <= next.order
    ensures size + (if added then 1 else 0) == |next.order| - |c.order|
  {
  }

  lemma MergeStepEntries(c: Corpus, seen: seq<Obj>, cur: Corpus, size: nat, row: Obj, next: Corpus, added: bool)
    requires Merged(c, seen, cur, size)
    requires AddRow(cur, row) == Success((next, added))
    ensures next.entries.Keys == c.entries.Keys + IdSet(seen + [row])
    ensures forall k :: k in c.entries ==> next.entries[k] == c.entries[k]
  {
    IdSetSnoc(seen, row);
  }

  lemma MergeStepEarliest(c: Corpus, seen: seq<Obj>, cur: Corpus, size: nat, row: Obj, next: Corpus, added: bool)
    requires Merged(c, seen, cur, size)
    requires AddRow(cur, row) == Success((next, added))
    ensures forall k :: k in next.entries && k !in c.entries ==> Earliest(seen + [row], k) == Some(next.entries[k])
  {
    forall j | j in next.entries && j !in c.entries
      ensures Earliest(seen + [row], j) == Some(next.entries[j])
    {
      EarliestSnoc(seen, row, j);
    }
  }

  /** Merging two lists of rows one after the other is merging their
      concatenation: a pull over several pages builds the same dict as one
      pass over every row it received. */
  lemma {:induction false} MergeAppend(c: Corpus, x: seq<Obj>, y: seq<Obj>)
    requires MergePage(c, x).Success?
    ensures MergePage(c, x + y).Success? <==> MergePage(MergePage(c, x).value.0, y).Success?
    ensures MergePage(c, x + y).Success? ==>
      && MergePage(c, x + y).value.0 == MergePage(MergePage(c, x).value.0, y).value.0
      && MergePage(c, x + y).value.1 == MergePage(c, x).value.1 + MergePage(MergePage(c, x).value.0, y).value.1
    decreases |y|
  {
    if |y| == 0 {
      assert x + y == x;
    } else {
      var init, last := y[..|y| - 1], y[|y| - 1];
      assert (x + y)[..|x + y| - 1] == x + init;
      assert (x + y)[|x + y| - 1] == last;
      MergeAppend(c, x, init);
    }
  }

  /** What a completed pull leaves behind. */
  datatype Pulled = Pulled(corpus: Corpus, currentLen: nat, offset: int, pageNo: nat, lastSize: nat)

  /** Rows whose ids the dict already holds change nothing. */
  lemma {:induction false} KnownRowsNoop(c: Corpus, rows: seq<Obj>)
    requires AllKeyed(rows) && IdSet(rows) <= c.entries.Keys
    ensures MergePage(c, rows) == Success((c, 0))
  {
    if |rows| > 0 {
      var init, last := rows[..|rows| - 1], rows[|rows| - 1];
      assert rows == init + [last];
      assert IdKey(rows[|init|]).Success?;
      assert AllKeyed(init) by {
        forall i | 0 <= i < |init| ensures IdKey(init[i]).Success? {
          assert init[i] == rows[i];
        }
      }
      IdSetSnoc(init, last);
      KnownRowsNoop(c, init);
    }
  }

  /** Fetching the same rows again, as a rerun from an earlier offset does,
      adds nothing: re-fetched duplicates are discarded. */
  lemma RefetchAddsNothing(c: Corpus, rows: seq<Obj>)
    requires Valid(c) && MergePage(c, rows).Success?
    ensures MergePage(MergePage(c, rows).value.0, rows) == Success((MergePage(c, rows).value.0, 0))
  {
    MergePageSpec(c, rows);
    KnownRowsNoop(MergePage(c, rows).value.0, rows);
  }

  /** The empty `fullset_anno`. */
  const Empty: Corpus := Corpus([], map[])

  /** `client.fetch_page(offset=..., limit=...)` (migrate.py:521-522): the
      rows of the page at an offset, or the failure of the request. */
  type Search = (int, nat) -> Result<seq<Obj>>

  /** The page at `offset` was received and every row has a usable id. */
  predicate Usable(page: Search, offset: int) {
    page(offset, PageSize).Success? && AllKeyed(page(offset, PageSize).value)
  }

  /** The rows received from the pages at `offsets`, in request order. */
  function Rows(page: Search, offsets: seq<int>): seq<Obj> {
    if |offsets| == 0 then []
    else
      var last := offsets[|offsets| - 1];
      Rows(page, offsets[..|offsets| - 1]) + (if page(last, PageSize).Success? then page(last, PageSize).value else [])
  }

  /** Each offset in `offsets` is the start offset plus the number of distinct
      ids received from the pages requested before it. */
  predicate Visited(page: Search, offsetStart: int, offsets: seq<int>) {
    |offsets| == 0 ||
      var init := offsets[..|offsets| - 1];
      Visited(page, offsetStart, init) && offsets[|offsets| - 1] == offsetStart + |IdSet(Rows(page, init))|
  }

  /** `Visited` at one position. */
  lemma {:induction false} VisitedAt(page: Search, offsetStart: int, offsets: seq<int>, i: nat)
    requires Visited(page, offsetStart, offsets) && i < |offsets|
    ensures offsets[i] == offsetStart + |IdSet(Rows(page, offsets[..i]))|
  {
    var init := offsets[..|offsets| - 1];
    if i < |init| {
      VisitedAt(page, offsetStart, init, i);
      assert offsets[..i] == init[..i];
    } else {
      assert offsets[..i] == init;
    }
  }

  /** `Visited` offset by offset. */
  lemma VisitedMeaning(page: Search, offsetStart: int, offsets: seq<int>)
    requires Visited(page, offsetStart, offsets)
    ensures forall i :: 0 <= i < |offsets| ==> offsets[i] == offsetStart + |IdSet(Rows(page, offsets[..i]))|
    ensures |offsets| > 0 ==> offsets[0] == offsetStart
  {
    forall i | 0 <= i < |offsets| ensures offsets[i] == offsetStart + |IdSet(Rows(page, offsets[..i]))| {
      VisitedAt(page, offsetStart, offsets, i);
    }
    if |offsets| > 0 {
      assert offsets[..0] == [];
    }
  }

  /** Requesting the next page at the advanced offset. */
  lemma VisitStep(page: Search, offsetStart: int, offsets: seq<int>, offset: int)
    requires Visited(page, offsetStart, offsets)
    requires offset == offsetStart + |IdSet(Rows(page, offsets))|
    ensures Visited(page, offsetStart, offsets + [offset])
    ensures page(offset, PageSize).Success? ==>
      Rows(page, offsets + [offset]) == Rows(page, offsets) + page(offset, PageSize).value
  {
    assert (offsets + [offset])[..|offsets|] == offsets;
  }

  /** The loop's account after the pages at `offsets`: each was received with
      usable ids, `fetched` is their rows, `corpus` the dict built from them,
      and `offset` the next offset to request. */
  ghost predicate Progress(page: Search, offsetStart: int, offsets: seq<int>, fetched: seq<Obj>, corpus: Corpus, offset: int) {
    && (forall i :: 0 <= i < |offsets| ==> Usable(page, offsets[i]))
    && Visited(page, offsetStart, offsets)
    && fetched == Rows(page, offsets)
    && Folds(fetched, corpus)
    && offset == offsetStart + |corpus.order|
  }

  /** One received page with usable ids moves the account forward. */
  lemma Advance(page: Search, offsetStart: int, offsets: seq<int>, fetched: seq<Obj>, corpus: Corpus, offset: int)
    requires Progress(page, offsetStart, offsets, fetched, corpus, offset)
    requires Usable(page, offset)
    ensures MergePage(corpus, page(offset, PageSize).value).Success?
    ensures
      var rows := page(offset, PageSize).value;
      var (next, size) := MergePage(corpus, rows).value;
      && Progress(page, offsetStart, offsets + [offset], fetched + rows, next, offset + size)
      && (size == 0 ==> next == corpus && NothingNew(corpus, rows))
  {
    var rows := page(offset, PageSize).value;
    PullDone(fetched, corpus);
    VisitStep(page, offsetStart, offsets, offset);
    PullStep(fetched, corpus, rows);
    var next := offsets + [offset];
    forall i | 0 <= i < |next| ensures Usable(page, next[i]) {
      if i < |offsets| {
        assert next[i] == offsets[i];
      }
    }
  }

  /** Where a pull that stops at the page at `offset` stands. */
  lemma Stopped(page: Search, offsetStart: int, offsets: seq<int>, fetched: seq<Obj>, corpus: Corpus, offset: int)
    requires Progress(page, offsetStart, offsets, fetched, corpus, offset)
    ensures Visited(page, offsetStart, offsets + [offset])
    ensures forall i :: 0 <= i < |offsets + [offset]| ==>
      (offsets + [offset])[i] == offsetStart + |IdSet(Rows(page, (offsets + [offset])[..i]))|
    ensures (offsets + [offset])[0] == offsetStart
    ensures forall i :: 0 <= i < |offsets + [offset]| - 1 ==> Usable(page, (offsets + [offset])[i])
  {
    PullDone(fetched, corpus);
    VisitStep(page, offsetStart, offsets, offset);
    VisitedMeaning(page, offsetStart, offsets + [offset]);
    forall i | 0 <= i < |offsets| ensures Usable(page, (offsets + [offset])[i]) {
      assert (offsets + [offset])[i] == offsets[i];
    }
  }

  /** The loop's state when it returns early: after the pages at `done`, the
      page at `offset` failed to arrive (`r` is a fetch failure) or merging it
      raised (`r` carries that error). */
  ghost predicate StoppedAt(page: Search, offsetStart: int, done: seq<int>, fetched: seq<Obj>, corpus: Corpus, offset: int,
                            r: Result<Pulled>) {
    && Progress(page, offsetStart, done, fetched, corpus, offset)
    && Increasing(done) && (|done| > 0 ==> done[|done| - 1] < offset) && |done| < PageCeiling - 1
    && (|done| == 0 ==> offset == offsetStart)
    && ( || (page(offset, PageSize).Failure? && r == Failure(FetchFailed))
         || (&& page(offset, PageSize).Success?
             && MergePage(corpus, page(offset, PageSize).value).Failure?
             && r == Failure(MergePage(corpus, page(offset, PageSize).value).error)))
  }

  /** The loop's state when it ends normally after the pages at `offsets`: the
      last page added nothing, or the page counter reached its ceiling. */
  ghost predicate EndedAt(page: Search, offsetStart: int, fetched: seq<Obj>, offsets: seq<int>, r: Result<Pulled>) {
    && r.Success?
    && Progress(page, offsetStart, offsets, fetched, r.value.corpus, r.value.offset)
    && Increasing(offsets) && |offsets| >= 1
    && r.value.currentLen == |r.value.corpus.order| && r.value.pageNo == |offsets| + 1 <= PageCeiling
    && (r.value.lastSize == 0 || r.value.pageNo == PageCeiling)
    && (r.value.lastSize == 0 ==>
          page(r.value.offset, PageSize).Success? && NothingNew(r.value.corpus, page(r.value.offset, PageSize).value))
    && (r.value.lastSize == 0 ==> r.value.offset == offsets[|offsets| - 1])
  }

  /** Packs the loop's account into `StoppedAt`. */
  lemma StopHere(page: Search, offsetStart: int, done: seq<int>, fetched: seq<Obj>, corpus: Corpus, offset: int,
                 r: Result<Pulled>)
    requires Progress(page, offsetStart, done, fetched, corpus, offset)
    requires Increasing(done) && (|done| > 0 ==> done[|done| - 1] < offset) && |done| < PageCeiling - 1
    requires |done| == 0 ==> offset == offsetStart
    requires
      || (page(offset, PageSize).Failure? && r == Failure(FetchFailed))
      || (&& page(offset, PageSize).Success?
          && MergePage(corpus, page(offset, PageSize).value).Failure?
          && r == Failure(MergePage(corpus, page(offset, PageSize).value).error))
    ensures StoppedAt(page, offsetStart, done, fetched, corpus, offset, r)
  {
  }

  /** The offsets a pull requested: the start offset first, each later one
      the start offset plus the distinct ids received before it, every page
      but the last usable and adding an id, fewer than the page ceiling. */
  ghost predicate Requests(page: Search, offsetStart: int, offsets: seq<int>) {
    && (|offsets| >= 1 && offsets[0] == offsetStart)
    && (forall i :: 0 <= i < |offsets| ==> offsets[i] == offsetStart + |IdSet(Rows(page, offsets[..i]))|)
    && (forall i :: 0 <= i < |offsets| - 1 ==> Usable(page, offsets[i]))
    && (|offsets| <= PageCeiling - 1)
    && (forall i :: 0 < i < |offsets| ==> offsets[i - 1] < offsets[i])
  }

  /** What a successful pull returns, in terms of its inputs alone. */
  ghost predicate SuccessReport(page: Search, offsetStart: int, r: Result<Pulled>) {
    && (r.Success? ==>
        var p := r.value;
        && Valid(p.corpus)
        && p.currentLen == |p.corpus.order|
        && p.offset == offsetStart + p.currentLen
        && 2 <= p.pageNo <= PageCeiling
        && (p.lastSize == 0 || p.pageNo == PageCeiling)
        && (p.lastSize == 0 ==> page(p.offset, PageSize).Success? && NothingNew(p.corpus, page(p.offset, PageSize).value))
        && Usable(page, offsetStart)
        && IdSet(page(offsetStart, PageSize).value) <= p.corpus.entries.Keys)
  }

  /** How the first page decides the pull when it fails or holds a row
      without a usable id. */
  ghost predicate FirstPageReport(page: Search, offsetStart: int, r: Result<Pulled>) {
    && (page(offsetStart, PageSize).Failure? ==> r == Failure(FetchFailed))
    && (page(offsetStart, PageSize).Success? && !AllKeyed(page(offsetStart, PageSize).value) ==>
        r.Failure? && (r.error.MissingKey? || r.error.WrongType?) && FirstUnkeyed(page(offsetStart, PageSize).value, r.error))
  }

  /** A successful pull against the pages it requested. */
  ghost predicate SuccessAccount(page: Search, r: Result<Pulled>, fetched: seq<Obj>, offsets: seq<int>) {
    && |offsets| >= 1
    && (r.Success? ==>
        var p := r.value;
        && |offsets| == p.pageNo - 1
        && Usable(page, offsets[|offsets| - 1])
        && fetched == Rows(page, offsets)
        && p.currentLen == |IdSet(fetched)|
        && p.corpus.entries.Keys == IdSet(fetched)
        && (forall k :: k in p.corpus.entries ==> Earliest(fetched, k) == Some(p.corpus.entries[k]))
        && (p.lastSize == 0 ==> p.offset == offsets[|offsets| - 1])
        && (p.pageNo < PageCeiling ==> p.offset == offsets[|offsets| - 1]))
  }

  /** Why a failed pull failed, at the last page it requested. */
  ghost predicate FailureAccount(page: Search, r: Result<Pulled>, offsets: seq<int>) {
    && |offsets| >= 1
    && (r.Failure? ==>
        var last := offsets[|offsets| - 1];
        || (page(last, PageSize).Failure? && r.error == FetchFailed)
        || (&& page(last, PageSize).Success? && !AllKeyed(page(last, PageSize).value)
            && (r.error.MissingKey? || r.error.WrongType?) && FirstUnkeyed(page(last, PageSize).value, r.error)))
  }

  /** Everything `PullAll` promises. */
  ghost predicate PullReport(page: Search, offsetStart: int, r: Result<Pulled>, fetched: seq<Obj>, offsets: seq<int>) {
    && Requests(page, offsetStart, offsets)
    && SuccessReport(page, offsetStart, r)
    && FirstPageReport(page, offsetStart, r)
    && SuccessAccount(page, r, fetched, offsets)
    && FailureAccount(page, r, offsets)
  }

  /** The outcome of a pull that stops at the page at `offset`, after the
      pages at `done`: that page failed to arrive, or merging it raised. */
  lemma FailedAt(page: Search, offsetStart: int, done: seq<int>, fetched: seq<Obj>, corpus: Corpus, offset: int,
                 r: Result<Pulled>, offsets: seq<int>)
    requires StoppedAt(page, offsetStart, done, fetched, corpus, offset, r)
    requires offsets == done + [offset]
    ensures PullReport(page, offsetStart, r, fetched, offsets)
  {
    FailedRequests(page, offsetStart, done, fetched, corpus, offset, r, offsets);
    FailedReason(page, offsetStart, done, fetched, corpus, offset, r, offsets);
  }

  /** The offsets a pull that stops early has requested. */
  lemma FailedRequests(page: Search, offsetStart: int, done: seq<int>, fetched: seq<Obj>, corpus: Corpus, offset: int,
                       r: Result<Pulled>, offsets: seq<int>)
    requires StoppedAt(page, offsetStart, done, fetched, corpus, offset, r)
    requires offsets == done + [offset]
    ensures Requests(page, offsetStart, offsets)
  {
    Stopped(page, offsetStart, done, fetched, corpus, offset);
    IncreasingSnoc(done, offset);
  }

  /** Why a pull that stops early stopped, at the first page and at the last. */
  lemma FailedReason(page: Search, offsetStart: int, done: seq<int>, fetched: seq<Obj>, corpus: Corpus, offset: int,
                     r: Result<Pulled>, offsets: seq<int>)
    requires StoppedAt(page, offsetStart, done, fetched, corpus, offset, r)
    requires offsets == done + [offset]
    ensures FirstPageReport(page, offsetStart, r) && FailureAccount(page, r, offsets)
  {
    if |done| > 0 {
      VisitedMeaning(page, offsetStart, done);
      assert Usable(page, done[0]);
    }
  }

  /** What the account says once the loop ends normally. */
  lemma Finished(page: Search, offsetStart: int, offsets: seq<int>, fetched: seq<Obj>, corpus: Corpus, offset: int)
    requires Progress(page, offsetStart, offsets, fetched, corpus, offset) && |offsets| >= 1
    ensures offsets[0] == offsetStart
    ensures forall i :: 0 <= i < |offsets| ==> offsets[i] == offsetStart + |IdSet(Rows(page, offsets[..i]))|
    ensures forall i :: 0 <= i < |offsets| ==> Usable(page, offsets[i])
    ensures fetched == Rows(page, offsets)
    ensures Valid(corpus) && |corpus.order| == |IdSet(fetched)| && corpus.entries.Keys == IdSet(fetched)
    ensures forall k :: k in corpus.entries ==> Earliest(fetched, k) == Some(corpus.entries[k])
  {
    PullDone(fetched, corpus);
    VisitedMeaning(page, offsetStart, offsets);
  }

  /** The outcome of a pull whose loop ends normally, after the pages at
      `offsets`: either the last page added nothing or the page counter
      reached its ceiling. */
  lemma Completed(page: Search, offsetStart: int, fetched: seq<Obj>, offsets: seq<int>, r: Result<Pulled>)
    requires EndedAt(page, offsetStart, fetched, offsets, r)
    ensures PullReport(page, offsetStart, r, fetched, offsets)
  {
    Finished(page, offsetStart, offsets, fetched, r.value.corpus, r.value.offset);
    FirstPageKept(page, offsets);
  }

  /** Every id on the first page requested is among the ids of all of them. */
  lemma FirstPageKept(page: Search, offsets: seq<int>)
    requires |offsets| >= 1 && Usable(page, offsets[0])
    ensures IdSet(page(offsets[0], PageSize).value) <= IdSet(Rows(page, offsets))
  {
    RowsGrow(page, offsets, 1);
    var first := offsets[..1];
    assert first[..0] == [] && first[0] == offsets[0];
    assert Rows(page, first) == [] + page(offsets[0], PageSize).value;
    assert Rows(page, first) == page(offsets[0], PageSize).value;
  }

  /** The rows of the first `j` pages are among the rows of all of them. */
  lemma {:induction false} RowsGrow(page: Search, offsets: seq<int>, j: nat)
    requires j <= |offsets|
    ensures IdSet(Rows(page, offsets[..j])) <= IdSet(Rows(page, offsets))
    decreases |offsets|
  {
    if j < |offsets| {
      var init := offsets[..|offsets| - 1];
      RowsGrow(page, init, j);
      assert init[..j] == offsets[..j];
      var last := offsets[|offsets| - 1];
      IdSetAppend(Rows(page, init), if page(last, PageSize).Success? then page(last, PageSize).value else []);
    } else {
      assert offsets[..j] == offsets;
    }
  }

  /** Each offset is larger than the one before: every page but the last added
      at least one new id. */
  ghost predicate Increasing(offsets: seq<int>) {
    forall i :: 0 < i < |offsets| ==> offsets[i - 1] < offsets[i]
  }

  lemma IncreasingSnoc(offsets: seq<int>, offset: int)
    requires Increasing(offsets) && (|offsets| > 0 ==> offsets[|offsets| - 1] < offset)
    ensures Increasing(offsets + [offset])
  {
  }

  /** What the loop's final state says about the pull as a whole. */
  lemma Outcome(page: Search, offsetStart: int, r: Result<Pulled>, fetched: seq<Obj>, done: seq<int>,
                stopCorpus: Corpus, stopOffset: int, offsets: seq<int>)
    requires r.Failure? ==> StoppedAt(page, offsetStart, done, fetched, stopCorpus, stopOffset, r)
    requires r.Success? ==> EndedAt(page, offsetStart, fetched, done, r)
    requires offsets == if r.Failure? then done + [stopOffset] else done
    ensures PullReport(page, offsetStart, r, fetched, offsets)
  {
    if r.Failure? {
      FailedAt(page, offsetStart, done, fetched, stopCorpus, stopOffset, r, offsets);
    } else {
      Completed(page, offsetStart, fetched, offsets, r);
    }
  }

  /** The page loop of `pull_all` (migrate.py:512-540; `pull_all_v2` repeats it
      at 712-740). `offsets` are the offsets it requested, in order, and
      `fetched` is every row received: the dict is the fold of all of them, so
      its size is the number of distinct ids. */
  method PullAll(page: Search, offsetStart: int)
    returns (r: Result<Pulled>, ghost fetched: seq<Obj>, ghost offsets: seq<int>)
    ensures Requests(page, offsetStart, offsets)
    ensures SuccessReport(page, offsetStart, r)
    ensures FirstPageReport(page, offsetStart, r)
    ensures SuccessAccount(page, r, fetched, offsets)
    ensures FailureAccount(page, r, offsets)
  {
    ghost var done: seq<int>, stopCorpus: Corpus, stopOffset: int;
    r, fetched, done, stopCorpus, stopOffset := PullLoop(page, offsetStart);
    offsets := if r.Failure? then done + [stopOffset] else done;
    Outcome(page, offsetStart, r, fetched, done, stopCorpus, stopOffset, offsets);
  }

  /** The loop itself: `done` are the offsets of the pages merged so far, and
      on an early return `stopCorpus` and `stopOffset` are the dict and the
      offset whose page stopped it. */
  method PullLoop(page: Search, offsetStart: int)
    returns (r: Result<Pulled>, ghost fetched: seq<Obj>, ghost done: seq<int>, ghost stopCorpus: Corpus, ghost stopOffset: int)
    ensures r.Failure? ==> StoppedAt(page, offsetStart, done, fetched, stopCorpus, stopOffset, r)
    ensures r.Success? ==> EndedAt(page, offsetStart, fetched, done, r)
  {
    var pageNo: nat := 1;
    var currentLen: nat := 0;
    var offset := offsetStart;
    var corpus := Empty;
    var moreToPull := true;
    var lastSize: nat := 0;
    fetched := [];
    done := [];
    ghost var lastOffset, lastRows := offset, [];
    while moreToPull && pageNo < PageCeiling
      invariant 1 <= pageNo <= PageCeiling
      invariant |done| == pageNo - 1
      invariant Progress(page, offsetStart, done, fetched, corpus, offset)
      invariant currentLen == |corpus.order|
      invariant Increasing(done)
      invariant moreToPull && |done| > 0 ==> done[|done| - 1] < offset
      invariant pageNo == 1 ==> moreToPull && offset == offsetStart
      invariant pageNo > 1 ==> (moreToPull <==> lastSize > 0)
      invariant !moreToPull ==> lastOffset == offset && page(lastOffset, PageSize) == Success(lastRows) && NothingNew(corpus, lastRows)
      invariant |done| > 0 ==> done[|done| - 1] == lastOffset
      decreases PageCeiling - pageNo
    {
      var content := page(offset, PageSize);
      if content.Failure? {
        r := Failure(FetchFailed);
        StopHere(page, offsetStart, done, fetched, corpus, offset, r);
        return r, fetched, done, corpus, offset;
      }
      var merged := MergePage(corpus, content.value);
      if merged.Failure? {
        r := Failure(merged.error);
        StopHere(page, offsetStart, done, fetched, corpus, offset, r);
        return r, fetched, done, corpus, offset;
      }
      var (next, size) := merged.value;
      Advance(page, offsetStart, done, fetched, corpus, offset);
      IncreasingSnoc(done, offset);
      lastOffset, lastRows := offset, content.value;
      done := done + [offset];
      fetched := fetched + content.value;
      corpus := next;
      currentLen := currentLen + size;
      offset := offset + size;
      moreToPull := size > 0;
      lastSize := size;
      pageNo := pageNo + 1;
    }
    r := Success(Pulled(corpus, currentLen, offset, pageNo, lastSize));
    stopCorpus, stopOffset := corpus, offset;
  }

  /** `corpus` is the dict built from the rows `fetched`. */
  predicate Folds(fetched: seq<Obj>, corpus: Corpus) {
    MergePage(Empty, fetched).Success? && MergePage(Empty, fetched).value.0 == corpus
  }

  /** Every id of `rows` is already a key of the dict. */
  predicate NothingNew(corpus: Corpus, rows: seq<Obj>) {
    IdSet(rows) <= corpus.entries.Keys
  }

  /** One page: the dict grows by the page's new ids, and a page that adds
      nothing leaves the dict as it was and brought only ids already held. */
  lemma PullStep(fetched: seq<Obj>, corpus: Corpus, rows: seq<Obj>)
    requires Folds(fetched, corpus)
    requires MergePage(corpus, rows).Success?
    ensures Folds(fetched + rows, MergePage(corpus, rows).value.0)
    ensures |MergePage(corpus, rows).value.0.order| == |corpus.order| + MergePage(corpus, rows).value.1
    ensures MergePage(corpus, rows).value.1 == 0 ==>
      MergePage(corpus, rows).value.0 == corpus && NothingNew(corpus, rows)
  {
    MergeAppend(Empty, fetched, rows);
    MergePageSpec(Empty, fetched);
    MergePageSpec(corpus, rows);
    var (next, size) := MergePage(corpus, rows).value;
    assert Valid(corpus);
    if size == 0 {
      NoNewIds(corpus, rows, next);
    }
  }

  /** A merge that adds no id changes nothing. */
  lemma NoNewIds(c: Corpus, rows: seq<Obj>, next: Corpus)
    requires Valid(c) && Merged(c, rows, next, 0)
    ensures next == c && NothingNew(c, rows)
  {
    assert c.order == next.order;
    assert c.entries == next.entries;
  }

  /** What the dict built from `fetched` holds. */
  lemma PullDone(fetched: seq<Obj>, corpus: Corpus)
    requires Folds(fetched, corpus)
    ensures Valid(corpus)
    ensures corpus.entries.Keys == IdSet(fetched)
    ensures |corpus.order| == |IdSet(fetched)|
    ensures forall k :: k in corpus.entries ==> Earliest(fetched, k) == Some(corpus.entries[k])
  {
    MergePageSpec(Empty, fetched);
    ValidSize(corpus);
  }

  /** A consistent dict has as many keys as its insertion order. */
  lemma ValidSize(c: Corpus)
    requires Valid(c)
    ensures |c.order| == |c.entries.Keys|
  {
    DistinctCard(c.order);
    assert c.entries.Keys == set k | k in c.order;
  }

  /** The records in insertion order: `list(fullset_anno.values())`, which
      `pull_all` saves and converts. */
  function Values(c: Corpus): (r: seq<Obj>)
    requires Valid(c)
    ensures |r| == |c.order|
    ensures forall i :: 0 <= i < |r| ==> c.order[i] in c.entries && r[i] == c.entries[c.order[i]]
    ensures forall i :: 0 <= i < |r| ==> IdKey(r[i]) == Success(c.order[i])
  {
    seq(|c.order|, i requires 0 <= i < |c.order| => c.entries[c.order[i]])
  }

  /** The saved corpus has unique ids and holds exactly the keys of the dict. */
  lemma ValuesUniqueIds(c: Corpus)
    requires Valid(c)
    ensures AllKeyed(Values(c))
    ensures IdSet(Values(c)) == c.entries.Keys
    ensures forall i, j :: 0 <= i < j < |Values(c)| ==> IdKey(Values(c)[i]) != IdKey(Values(c)[j])
  {
    var vs := Values(c);
    IdSetMeaning(vs);
    forall k | k in c.entries ensures k in IdSet(vs) {
      var i :| 0 <= i < |c.order| && c.order[i] == k;
      assert IdKey(vs[i]) == Success(k);
    }
  }

  /** Every stored record is in the saved list. */
  lemma ValuesComplete(c: Corpus)
    requires Valid(c)
    ensures forall k :: k in c.entries ==> c.entries[k] in Values(c)
  {
    forall k | k in c.entries ensures c.entries[k] in Values(c) {
      var i :| 0 <= i < |c.order| && c.order[i] == k;
      assert Values(c)[i] == c.entries[k];
    }
  }
}

=== FILE: records.dfy ===
/**
 The annotation records the migration tool reads and writes: JSON values as
 `json.load` produces them, the dictionary keys Python derives from an `id`,
 and the exceptions (`KeyError`, `TypeError`, a failed fetch) that end a
 command, as a `Result`.
 */
module Records {

  /** A JSON value. Floating-point numbers are not modelled. */
  datatype Json =
    | JNull
    | JBool(b: bool)
    | JInt(i: int)
    | JStr(s: string)
    | JArr(items: seq<Json>)
    | JObj(fields: map<string, Json>)

  /** An annotation record: one JSON object (a Python dict). */
  type Obj = map<string, Json>

  /** A Python dict key built from a JSON scalar. `True` and `1` hash and
      compare equal in Python, so a boolean becomes the integer key. */
  datatype Key = KNone | KInt(n: int) | KStr(text: string)

  /** Why a command stops. */
  datatype Error =
    | MissingKey(key: string)                   // KeyError
    | WrongType(reason: string)                 // TypeError
    | FetchFailed                               // the search request raised

  datatype Result<+T> = Success(value: T) | Failure(error: Error)

  datatype Option<+T> = None | Some(value: T)

  /** The dict key Python uses for a JSON value; lists and dicts are unhashable. */
  function HashKey(v: Json): (r: Result<Key>)
    ensures r.Success? <==> !v.JArr? && !v.JObj?
    ensures v.JNull? ==> r == Success(KNone)
    ensures v.JBool? ==> r == Success(KInt(if v.b then 1 else 0))
    ensures v.JInt? ==> r == Success(KInt(v.i))
    ensures v.JStr? ==> r == Success(KStr(v.s))
  {
    match v
    case JNull => Success(KNone)
    case JBool(b) => Success(KInt(if b then 1 else 0))
    case JInt(i) => Success(KInt(i))
    case JStr(s) => Success(KStr(s))
    case JArr(_) => Failure(WrongType("unhashable type: 'list'"))
    case JObj(_) => Failure(WrongType("unhashable type: 'dict'"))
  }

  /** `c['id']` used as a dict key. */
  function IdKey(c: Obj): (r: Result<Key>)
    ensures "id" !in c ==> r == Failure(MissingKey("id"))
    ensures "id" in c ==> r == HashKey(c["id"])
    ensures r.Failure? ==> r.error.MissingKey? || r.error.WrongType?
  {
    if "id" !in c then Failure(MissingKey("id")) else HashKey(c["id"])
  }

  /** Every record of `rows` has a usable dict key. */
  predicate AllKeyed(rows: seq<Obj>) {
    forall i :: 0 <= i < |rows| ==> IdKey(rows[i]).Success?
  }

  /** `e` is the error of the first record of `rows` without a usable key: the
      one a loop that reads `c['id']` record by record stops at. */
  ghost predicate FirstUnkeyed(rows: seq<Obj>, e: Error) {
    exists i :: 0 <= i < |rows| && AllKeyed(rows[..i]) && IdKey(rows[i]) == Failure(e)
  }

  /** `e` is the error of the first element of `xs` on which `f` fails: the one
      a loop applying `f` element by element stops at. */
  ghost predicate FirstFailure<T, U>(xs: seq<T>, f: T -> Result<U>, e: Error) {
    exists i :: 0 <= i < |xs| && (forall j :: 0 <= j < i ==> f(xs[j]).Success?) && f(xs[i]) == Failure(e)
  }

  /** The dict key of one record, as a set: empty when it has none. */
  function KeyOf(row: Obj): set<Key> {
    if IdKey(row).Success? then {IdKey(row).value} else {}
  }

  /** The keys of the records of `rows` that have one. */
  function IdSet(rows: seq<Obj>): set<Key> {
    if |rows| == 0 then {} else IdSet(rows[..|rows| - 1]) + KeyOf(rows[|rows| - 1])
  }

  /** The keys of a list grow by the key of each appended record. */
  lemma IdSetSnoc(rows: seq<Obj>, row: Obj)
    ensures IdSet(rows + [row]) == IdSet(rows) + KeyOf(row)
  {
    assert (rows + [row])[..|rows|] == rows;
  }

  /** The keys of two lists joined are the keys of each. */
  lemma {:induction false} IdSetAppend(a: seq<Obj>, b: seq<Obj>)
    ensures IdSet(a + b) == IdSet(a) + IdSet(b)
    decreases |b|
  {
    if |b| == 0 {
      assert a + b == a;
    } else {
      var init, last := b[..|b| - 1], b[|b| - 1];
      assert b == init + [last];
      assert a + b == (a + init) + [last];
      IdSetSnoc(a + init, last);
      IdSetSnoc(init, last);
      IdSetAppend(a, init);
    }
  }

  /** `IdSet` holds exactly the keys that some record of the list carries. */
  lemma {:induction false} IdSetMeaning(rows: seq<Obj>)
    ensures forall i :: 0 <= i < |rows| && IdKey(rows[i]).Success? ==> IdKey(rows[i]).value in IdSet(rows)
    ensures forall k :: k in IdSet(rows) ==> exists i :: 0 <= i < |rows| && IdKey(rows[i]) == Success(k)
  {
    if |rows| > 0 {
      var init, last := rows[..|rows| - 1], rows[|rows| - 1];
      IdSetMeaning(init);
      assert forall i :: 0 <= i < |init| ==> rows[i] == init[i];
      forall k | k in IdSet(rows) ensures exists i :: 0 <= i < |rows| && IdKey(rows[i]) == Success(k) {
        if k in IdSet(init) {
          var i :| 0 <= i < |init| && IdKey(init[i]) == Success(k);
          assert rows[i] == init[i];
        } else {
          assert IdKey(rows[|rows| - 1]) == Success(k);
        }
      }
    }
  }

  /** `len(v)` for the JSON values Python can measure. */
  predicate Sized(v: Json) {
    v.JStr? || v.JArr? || v.JObj?
  }

  function Length(v: Json): nat
    requires Sized(v)
  {
    match v
    case JStr(s) => |s|
    case JArr(xs) => |xs|
    case JObj(m) => |m|
  }

  /** Python's `needle in text` on strings. */
  predicate Substring(needle: string, text: string)
    decreases |text|
  {
    needle <= text || (|text| > 0 && Substring(needle, text[1..]))
  }

  /** The elements of `s` satisfying `p`, in order (a list comprehension with a guard). */
  function Filter<T>(s: seq<T>, p: T -> bool): (r: seq<T>)
  {
    if |s| == 0 then []
    else Filter(s[..|s| - 1], p) + (if p(s[|s| - 1]) then [s[|s| - 1]] else [])
  }

  lemma FilterSnoc<T>(s: seq<T>, x: T, p: T -> bool)
    ensures Filter(s + [x], p) == Filter(s, p) + (if p(x) then [x] else [])
  {
    assert (s + [x])[..|s + [x]| - 1] == s;
  }

  /** Sequences with no repeated element. */
  predicate Distinct<T(==)>(s: seq<T>) {
    forall i, j :: 0 <= i < j < |s| ==> s[i] != s[j]
  }

  /** A repetition-free sequence has as many elements as its set. */
  lemma {:induction false} DistinctCard<T>(s: seq<T>)
    requires Distinct(s)
    ensures |set x | x in s| == |s|
  {
    if |s| > 0 {
      var t := s[..|s| - 1];
      var x := s[|s| - 1];
      assert Distinct(t);
      DistinctCard(t);
      assert x !in t;
      assert (set y | y in s) == (set y | y in t) + {x};
    }
  }
}

=== FILE: sanitize.dfy ===
/**
 `clean_to_alphanum_only`, which turns a context id into the name used in the
 tool's output file names: `re.sub(r'[^A-za-z0-9]', '_', name)`. The class
 as written spells the letter range `A-z`, code points 65 to 122, which also
 holds the six characters `[ \ ] ^ _` and the backtick (91 to 96), so those
 pass through unchanged. `CleanToAlphanumOnly` models the code as written;
 `CleanToAlphanumIntended` is the evident intent, `A-Za-z`.
 */
module Sanitize {

  /** Characters the class `[A-za-z0-9]` matches: `0-9` and every code point
      from `A` through `z`. */
  predicate KeptAsWritten(ch: char) {
    ('0' <= ch <= '9') || ('A' <= ch <= 'z')
  }

  /** ASCII letters and digits. */
  predicate Alphanumeric(ch: char) {
    ('0' <= ch <= '9') || ('A' <= ch <= 'Z') || ('a' <= ch <= 'z')
  }

  /** `re.sub` with a one-character class scans the name once and replaces
      each character outside the class by `_`. */
  function Substitute(name: string, keep: char -> bool): (r: string)
    ensures |r| == |name|
    ensures forall i :: 0 <= i < |name| ==> r[i] == if keep(name[i]) then name[i] else '_'
  {
    if |name| == 0 then ""
    else [if keep(name[0]) then name[0] else '_'] + Substitute(name[1..], keep)
  }

  /** `clean_to_alphanum_only` as written (migrate.py:181-182). */
  function CleanToAlphanumOnly(name: string): (r: string)
    ensures |r| == |name|
    ensures forall i :: 0 <= i < |r| ==> KeptAsWritten(r[i])
    ensures forall i :: 0 <= i < |r| ==> (r[i] == name[i] <==> KeptAsWritten(name[i]) || name[i] == '_')
    ensures forall i :: 0 <= i < |r| && !KeptAsWritten(name[i]) ==> r[i] == '_'
  {
    Substitute(name, KeptAsWritten)
  }

  /** The class as written lets an opening bracket through: the name `a[b`
      comes back unchanged although it is not alphanumeric. */
  lemma BracketSurvives()
    ensures CleanToAlphanumOnly("a[b") == "a[b"
    ensures !Alphanumeric('[')
  {
    var r := CleanToAlphanumOnly("a[b");
    assert r[0] == 'a' && r[1] == '[' && r[2] == 'b';
  }

  /** Applying the sanitiser as written twice gives the same name as once. */
  lemma CleanIdempotent(name: string)
    ensures CleanToAlphanumOnly(CleanToAlphanumOnly(name)) == CleanToAlphanumOnly(name)
  {
    var once := CleanToAlphanumOnly(name);
    var twice := CleanToAlphanumOnly(once);
    assert forall i :: 0 <= i < |once| ==> twice[i] == once[i];
  }

  /** The evident intent, `[^A-Za-z0-9]`: only letters, digits and `_` remain. */
  function CleanToAlphanumIntended(name: string): (r: string)
    ensures |r| == |name|
    ensures forall i :: 0 <= i < |r| ==> Alphanumeric(r[i]) || r[i] == '_'
    ensures forall i :: 0 <= i < |r| ==> (r[i] == name[i] <==> Alphanumeric(name[i]) || name[i] == '_')
    ensures forall i :: 0 <= i < |r| && !Alphanumeric(name[i]) ==> r[i] == '_'
  {
    Substitute(name, Alphanumeric)
  }

  /** The intended sanitiser maps `a[b` to `a_b`. */
  lemma BracketReplaced()
    ensures CleanToAlphanumIntended("a[b") == "a_b"
  {
    var r := CleanToAlphanumIntended("a[b");
    assert r[0] == 'a' && r[1] == '_' && r[2] == 'b';
  }

  /** Applying the intended sanitiser twice gives the same name as once. */
  lemma IntendedIdempotent(name: string)
    ensures CleanToAlphanumIntended(CleanToAlphanumIntended(name)) == CleanToAlphanumIntended(name)
  {
    var once := CleanToAlphanumIntended(name);
    var twice := CleanToAlphanumIntended(once);
    assert forall i :: 0 <= i < |once| ==> twice[i] == once[i];
  }

  /** The two differ exactly on the six characters between `Z` and `a`. */
  lemma AsWrittenVersusIntended(name: string)
    ensures forall i :: 0 <= i < |name| ==>
      (CleanToAlphanumOnly(name)[i] != CleanToAlphanumIntended(name)[i] <==> 'Z' < name[i] < 'a' && name[i] != '_')
  {
  }
}

=== FILE: tombstone.dfy ===
/**
 The tombstone utility `set_deleted`: every record of a canonical corpus gets
 `platform.deleted = true`. Reading the input and printing the result are not
 part of this model.
 */
module Tombstone {
  import opened Records

  /** `c['platform']['deleted'] = True` for one record (set_deleted.py:29). A
      record without `platform` raises KeyError; a `platform` that is not an
      object raises TypeError. */
  function MarkDeleted(c: Obj): (r: Result<Obj>)
    ensures r.Success? <==> "platform" in c && c["platform"].JObj?
    ensures "platform" !in c ==> r == Failure(MissingKey("platform"))
    ensures r.Success? ==> r.value.Keys == c.Keys
    ensures r.Success? ==> forall k :: k in c && k != "platform" ==> r.value[k] == c[k]
    ensures r.Success? ==>
      var p, q := c["platform"], r.value["platform"];
      && q.JObj?
      && "deleted" in q.fields && q.fields["deleted"] == JBool(true)
      && q.fields.Keys == p.fields.Keys + {"deleted"}
      && forall k :: k in p.fields && k != "deleted" ==> q.fields[k] == p.fields[k]
  {
    if "platform" !in c then Failure(MissingKey("platform"))
    else
      match c["platform"]
      case JObj(p) => Success(c["platform" := JObj(p["deleted" := JBool(true)])])
      case JArr(_) => Failure(WrongType("list indices must be integers or slices, not str"))
      case _ => Failure(WrongType("object does not support item assignment"))
  }

  /** The loop of `set_deleted` (set_deleted.py:24-31): the first record that
      cannot be marked ends the run and nothing is printed; otherwise every
      record is marked, in the same order. */
  function SetDeleted(list: seq<Obj>): (r: Result<seq<Obj>>)
    ensures r.Success? <==> forall i :: 0 <= i < |list| ==> MarkDeleted(list[i]).Success?
    ensures r.Success? ==> |r.value| == |list|
    ensures r.Success? ==> forall i :: 0 <= i < |list| ==> MarkDeleted(list[i]) == Success(r.value[i])
  {
    if |list| == 0 then Success([])
    else
      match MarkDeleted(list[0])
      case Failure(e) => Failure(e)
      case Success(c) =>
        match SetDeleted(list[1..])
        case Failure(e) => Failure(e)
        case Success(rest) => Success([c] + rest)
  }

  /** A failed run reports the error of the first record that cannot be
      marked. */
  lemma {:induction false} SetDeletedFailsFirst(list: seq<Obj>)
    requires SetDeleted(list).Failure?
    ensures exists i :: (0 <= i < |list| && MarkDeleted(list[i]) == Failure(SetDeleted(list).error) &&
                         forall j :: 0 <= j < i ==> MarkDeleted(list[j]).Success?)
  {
    if MarkDeleted(list[0]).Success? {
      var tail := list[1..];
      SetDeletedFailsFirst(tail);
      var i :| 0 <= i < |tail| && MarkDeleted(tail[i]) == Failure(SetDeleted(tail).error)
        && forall j :: 0 <= j < i ==> MarkDeleted(tail[j]).Success?;
      assert list[i + 1] == tail[i];
      assert forall j :: 1 <= j < i + 1 ==> list[j] == tail[j - 1];
    }
  }

  /** Every record of the output is a tombstone. */
  lemma AllTombstones(list: seq<Obj>)
    requires SetDeleted(list).Success?
    ensures forall i :: 0 <= i < |list| ==>
      var q := SetDeleted(list).value[i]["platform"];
      q.JObj? && "deleted" in q.fields && q.fields["deleted"] == JBool(true)
  {
  }

  /** Marking a record twice is the same as marking it once. */
  lemma MarkDeletedIdempotent(c: Obj)
    requires MarkDeleted(c).Success?
    ensures MarkDeleted(MarkDeleted(c).value) == MarkDeleted(c)
  {
    var p := c["platform"].fields;
    var q := p["deleted" := JBool(true)];
    var d := c["platform" := JObj(q)];
    assert MarkDeleted(c) == Success(d);
    assert q["deleted" := JBool(true)] == q;
    assert d["platform" := JObj(q)] == d;
  }

  /** Running the tombstone utility on its own output changes nothing. */
  lemma {:induction false} SetDeletedIdempotent(list: seq<Obj>)
    requires SetDeleted(list).Success?
    ensures SetDeleted(SetDeleted(list).value) == SetDeleted(list)
  {
    if |list| > 0 {
      var out := SetDeleted(list).value;
      MarkDeletedIdempotent(list[0]);
      SetDeletedIdempotent(list[1..]);
      assert out == [out[0]] + out[1..];
      assert out[1..] == SetDeleted(list[1..]).value;
    }
  }
}
